=== FILE: README.md ===
# Billing POS core in Dafny

A verified model of the pure logic of a point-of-sale front end for small
shops. The front end sells products from a catalog through a cart, records
orders, shows sales statistics, manages the inventory with unit
conversion, keeps a store profile, and lets the platform administrator
onboard client organisations and outlets.

The model has one module per page, plus shared modules:

| module | file | page |
|---|---|---|
| `Wrappers` | wrappers.dfy | `Option` and `Result` |
| `Seqs` | seqs.dfy | filter, sums and prefixes over sequences, with their algebra |
| `Sorting` | sorting.dfy | the stable sort of `Array.prototype.sort` with a key comparator |
| `Text` | text.dfy | `toLowerCase` (ASCII) and `includes` |
| `Types` | types.dfy | the shared records (`Product`, `CartItem`, `Order`, `StoreProfile`, `DashboardStats`) |
| `Cart` | cart.dfy | the cart state machine and its totals |
| `Checkout` | checkout.dfy | the checkout dialog and the order-creation request |
| `Dashboard` | dashboard.dfy | `calculateStats` |
| `Inventory` | inventory.dfy | unit normalisation, the product form, search and delete |
| `OrderHistory` | orderhistory.dfy | the order list's filters and ordering |
| `Profile` | profile.dfy | the store profile's load, save and cancel |
| `Onboard` | onboard.dfy | the onboarding form and its requests |

Some conventions:

- Money is `real`. Quantities and stock are `int`.
- Timestamps are milliseconds since the epoch.
- A number typed into a form is `Input<T>`: either `Blank` (the empty
  string), or `Typed(parsed)` with `parsed == None` standing for `NaN`.
- Every database or backend call is a parameter carrying its reply. Every
  update the page makes is a pure function from the old page state to the
  new one.

The cart's central invariant is `Cart.Valid`:

- line ids are distinct;
- no product appears on two lines;
- every line's product is in the catalog, with `1 <= quantity <= stock`;
- every line total equals `price * quantity * (1 - discount / 100)`.

Every add, quantity change or removal preserves it (`Cart.StepPreservesValid`),
and so does confirming an order (`Checkout.ConfirmKeepsValid`).

## Model

| member | source | states |
|---|---|---|
| Cart.FindProduct | src/pages/Cart.tsx:70 | the product found has the requested id, is in the catalog and is the first catalog entry with that id; none is found exactly when no catalog entry has that id |
| Cart.FindItem | src/pages/Cart.tsx:69 | the line found has the requested id and is the first cart line with it; none is found exactly when no line has that id |
| Cart.NewLine | src/pages/Cart.tsx:50-58 | a new line carries the fresh line id and the product's id, name, price and discount, holds one unit, and its total is the one-unit line total after the discount |
| Cart.RemoveFromCart | src/pages/Cart.tsx:86-88 | the result holds exactly the lines whose id differs from the removed one; removing an absent id leaves the cart as it was |
| Cart.RemoveExactlyOneLine | src/pages/Cart.tsx:86-88 | with distinct line ids, removing a line takes out just that line and keeps the others in their order |
| Cart.SetLine | src/pages/Cart.tsx:77-83 | lines with the target id get the new quantity and the matching line total; every other line is untouched; the length is kept |
| Cart.UpdateQuantity | src/pages/Cart.tsx:63-84 | a quantity <= 0 removes the line. A positive quantity is refused exactly when the line's catalog product exists and has less stock. Otherwise only the target line changes: it keeps its id, product, name, price and discount, and gets the new quantity and its total |
| Cart.ExistingItem | src/pages/Cart.tsx:36 | the line found is a cart line for the product; none is found exactly when no line is for the product |
| Cart.ExistingItemIsFirst | src/pages/Cart.tsx:36 | when line i is the first line for the product, line i is the one found |
| Cart.AddToLine | src/pages/Cart.tsx:38-43 | the existing-line branch of adding: refused at the product's stock, otherwise the quantity change of that line to one more (stated by Cart.AddToLineIncrements) |
| Cart.AddToCart | src/pages/Cart.tsx:35-61 | a product already in the cart is refused with insufficient stock once its line holds the product's stock. A new product is refused as out of stock when its stock is <= 0, or else gets one new one-unit line appended after the others |
| Cart.AddExistingFollowsUpdate | src/pages/Cart.tsx:38-43 | below the product's stock, adding a listed product is accepted exactly when changing its line to one unit more is, and fails with the same error |
| Cart.FindItemAt | src/pages/Cart.tsx:69 | with distinct line ids, looking up a line's id finds that very line |
| Cart.SameIdSameIndex | src/pages/Cart.tsx:51 | with distinct line ids, an id names at most one position |
| Cart.ResizeLineAt | src/pages/Cart.tsx:77-83 | with distinct line ids, an accepted positive quantity change of a line changes that line alone, to the new quantity and total |
| Cart.AddToLineIncrements | src/pages/Cart.tsx:38-43 | with distinct line ids, raising line i (holding at least one unit) of a product with catalog stock s is refused once the line holds s; otherwise exactly line i goes up by one, its total recomputed, and every other line stays |
| Cart.AddExistingIncrements | src/pages/Cart.tsx:36-43 | in a valid cart, adding a listed product either fails for stock or raises exactly that line by one, leaving the other lines |
| Cart.RemovePreservesValid | src/pages/Cart.tsx:86-88 | removing lines keeps the cart invariant |
| Cart.SetLinePreservesValid | src/pages/Cart.tsx:77-83 | re-quantifying lines keeps the invariant when the new quantity is positive and within each affected line's stock |
| Cart.UpdatePreservesValid | src/pages/Cart.tsx:63-84 | every accepted quantity change keeps `1 <= quantity <= stock` and the rest of the invariant |
| Cart.AppendPreservesValid | src/pages/Cart.tsx:50-59 | appending a one-unit line for an in-stock catalog product not yet in the cart, under a fresh id, keeps the invariant |
| Cart.AddExistingPreservesValid | src/pages/Cart.tsx:38-43 | raising a listed line by one keeps the invariant, whatever stock the added product claims |
| Cart.AddNewPreservesValid | src/pages/Cart.tsx:44-59 | adding a catalog product that is not yet listed keeps the invariant |
| Cart.AddPreservesValid | src/pages/Cart.tsx:35-61 | adding any catalog product under a fresh line id keeps the invariant |
| Cart.UnknownProductSkipsGuard | src/pages/Cart.tsx:69-75 | when a line's product is missing from the catalog, any positive quantity is accepted: the stock guard is skipped |
| Cart.Step | src/pages/Cart.tsx:35-88 | the cart after an add, quantity change or removal; a refused event leaves the cart as it was (its invariant is Cart.StepPreservesValid) |
| Cart.StepPreservesValid | src/pages/Cart.tsx:35-88 | every add, quantity change or removal the page can issue keeps the cart invariant |
| Cart.CalculateTotals | src/pages/Cart.tsx:96-102 | the amount charged is the subtotal less the discount; an empty cart has all three totals zero. With Cart.TotalsOfOneLine and Cart.TotalsAppend this fixes each total line by line |
| Cart.TotalsOfOneLine | src/pages/Cart.tsx:97-98 | one line adds price * quantity to the subtotal and price * quantity * discount / 100 to the discount |
| Cart.TotalsAppend | src/pages/Cart.tsx:96-101 | the subtotal, discount and amount charged of two joined carts are the sums of theirs |
| Cart.TotalsOrderIndependent | src/pages/Cart.tsx:96-102 | carts with the same lines in any order have equal totals |
| Cart.FinalIsSumOfLines | src/pages/Cart.tsx:96-99 | when line totals are up to date, the amount charged is the sum of the line totals shown |
| Cart.DiscountBounded | src/pages/Cart.tsx:97-99 | with non-negative prices and quantities and discounts of 0-100 percent, the discount is between zero and the subtotal, and the amount charged is non-negative |
| Checkout.Optional | src/pages/Cart.tsx:130-131 | an empty customer field is sent as absent, and any other value is sent as it is |
| Checkout.ToOrderItem | src/pages/Cart.tsx:139-146 | the request line of a cart line (its partner, Checkout.SumOfMapped, keeps the sum of line totals) |
| Checkout.CashShort | src/pages/Cart.tsx:115-120 | the cash check: cash is short when it is not a number or below the amount charged (refused exactly then by Checkout.BuildOrder) |
| Checkout.BuildOrder | src/pages/Cart.tsx:113-147 | Cash that is unparsable or short of the amount charged is refused first. Then missing org or outlet ids are refused. Otherwise the request is well formed: amount = subtotal - discount; cash covers it; change = cash - amount >= 0; status completed; items map 1:1 and in order |
| Checkout.PayloadAgreesWithItems | src/pages/Cart.tsx:127-147 | the request's amount charged equals the sum of its own item totals when the cart's line totals are up to date |
| Checkout.SumOfMapped | src/pages/Cart.tsx:139-146 | mapping cart lines to request items keeps the sum of line totals |
| Checkout.ClearCart | src/pages/Cart.tsx:90-94 | clearing empties the cart, the customer fields and the cash box, and keeps the payment method and routing ids |
| Checkout.HandleCheckout | src/pages/Cart.tsx:104-110 | the checkout dialog opens exactly when the cart is non-empty; otherwise an empty-cart error is given |
| Checkout.ConfirmOrder | src/pages/Cart.tsx:112-159 | A failed validation sends no request. Any failure leaves the cart and fields untouched. Success happens exactly when validation passes and the backend created the order; it then leaves exactly the cleared session with the dialog closed, so the payment method and the identities are kept |
| Checkout.ConfirmKeepsValid | src/pages/Cart.tsx:112-159 | confirming keeps the cart invariant: a created order leaves the empty cart, and any other outcome the cart as it was |
| Checkout.RecordedChangeIsDisplayed | src/pages/Cart.tsx:137-162 | for an accepted cash payment, the change sent equals `changeAmount` and the change shown, and it is non-negative |
| Checkout.ChangeAmount | src/pages/Cart.tsx:162 | cash less the amount charged once cash is typed, otherwise 0 (related to the shown and sent change by Checkout.RecordedChangeIsDisplayed) |
| Checkout.DisplayedChange | src/pages/Cart.tsx:356-363 | the change shown is never negative: it is `changeAmount` when that is >= 0, 0 when it is negative, and not a number exactly when `changeAmount` is not |
| Checkout.ShortCashShowsZero | src/pages/Cart.tsx:360-361 | typed cash short of the amount charged shows a change of 0, and the order is refused for insufficient cash |
| Dashboard.FilteredOrders | src/pages/Dashboard.tsx:44-46 | the kept orders are exactly the completed orders created at or after the period start |
| Dashboard.Sales | src/pages/Dashboard.tsx:48 | period sales are the sum of the counted orders' amounts charged (stated per order by Dashboard.CountedOrderAdds) |
| Dashboard.CostPrice | src/pages/Dashboard.tsx:53-54 | the cost of a sold line: the product's cost price, or 70% of the price when there is none (stated by Dashboard.LineProfit) |
| Dashboard.Profit | src/pages/Dashboard.tsx:51-58 | the estimated profit summed over every line of every counted order (stated per order by Dashboard.CountedOrderAdds) |
| Dashboard.LineProfit | src/pages/Dashboard.tsx:51-58 | a line with an unknown product or a missing or zero cost price earns 30% of its gross value; otherwise it earns (price - cost) times quantity |
| Dashboard.LowStockItems | src/pages/Dashboard.tsx:61 | the low-stock list holds exactly the products with stock <= their alert level; when all are low it is the whole catalog in order |
| Dashboard.LowStockAppend | src/pages/Dashboard.tsx:61 | the low-stock list of two joined catalogs is their lists joined, so the list keeps catalog order |
| Dashboard.ProductSales | src/pages/Dashboard.tsx:64-72 | there is one entry per catalog product, in catalog order, carrying its units sold over the counted orders |
| Dashboard.TotalSold | src/pages/Dashboard.tsx:64-70 | units of a product over the counted orders (stated per order by Dashboard.CountedOrderAdds, non-negative by Dashboard.SoldNonNegative) |
| Dashboard.FastMovers | src/pages/Dashboard.tsx:74-77 | min(5, number of sellers) entries, each a product with sales > 0, listed most sold first, as a prefix of the sellers in descending order |
| Dashboard.SlowMovers | src/pages/Dashboard.tsx:80-82 | min(5, number of products) entries, least sold first, as a prefix of all products in ascending order of sales |
| Dashboard.CalculateStats | src/pages/Dashboard.tsx:44-90 | both mover lists hold at most five entries, and the slow list holds exactly five once there are five products. Low-stock entries are catalog products at or below their level. Fast movers all sold something |
| Dashboard.UncountedOrderIgnored | src/pages/Dashboard.tsx:44-46 | an order from before the period, or one not completed, changes no statistic |
| Dashboard.CountedOrderAdds | src/pages/Dashboard.tsx:48-70 | a counted order adds exactly its amount to sales, its line profits to profit, and its units to each product's total |
| Dashboard.NoCountedOrders | src/pages/Dashboard.tsx:44-77 | with no counted orders, sales and profit are zero and there are no fast movers |
| Dashboard.SoldNonNegative | src/pages/Dashboard.tsx:64-70 | non-negative quantities give non-negative units sold |
| Dashboard.ItemsNonNegative | src/pages/Dashboard.tsx:66-68 | the units of one order's lines are non-negative when their quantities are |
| Dashboard.UnsoldNeverFast | src/pages/Dashboard.tsx:74-77 | a product that sold nothing is never a fast mover |
| Dashboard.FastMoversAreTop | src/pages/Dashboard.tsx:74-77 | every seller left out of the fast movers sold no more than any fast mover |
| Dashboard.SlowMoversAreBottom | src/pages/Dashboard.tsx:80-82 | every product left out of the slow movers sold no less than any slow mover |
| Dashboard.UnsoldLeadsSlowMovers | src/pages/Dashboard.tsx:80-82 | when some product sold nothing, the slowest mover sold nothing: zero-sellers qualify |
| Dashboard.UnsoldProductLeadsSlowMovers | src/pages/Dashboard.tsx:44-82 | with no negative quantity in any order, a catalog product that sold nothing in the period makes the first slow mover one that sold nothing |
| Dashboard.SlowMoverTiesKeepCatalogOrder | src/pages/Dashboard.tsx:80-82 | products with equal sales keep their catalog order in the sorted list |
| Inventory.BaseUnit | src/pages/Inventory.tsx:89-93 | the base unit is ml exactly for liquids, g exactly for solids, and pcs exactly for pieces |
| Inventory.QuantityPerItem | src/pages/Inventory.tsx:95-99 | a piece product holds one unit per item; a liquid or solid holds its pack size, times 1000 for l and kg; an unparsable pack size gives no per-item quantity |
| Inventory.ToBase | src/pages/Inventory.tsx:77-87 | the stock in base units is the pack count times the base units per pack, in every category. Pieces pass through unchanged. An unparsable count gives no number |
| Inventory.LargeUnitsAreThousandfold | src/pages/Inventory.tsx:77-87 | packs entered in l or kg give a thousand times the stock of the same packs in ml or g |
| Inventory.ChangeCategory | src/pages/Inventory.tsx:286-291 | changing category sets the category's base unit and a pack size of one, so stock then passes through unchanged |
| Inventory.BuildRecord | src/pages/Inventory.tsx:101-128 | A missing name, price or stock is refused, then a missing user. Otherwise the cost price is stored when typed and null when blank; the discount defaults to 0, the alert level to 5, and the barcode to the generated one; an empty category or org id is stored as null. Stock is stored in base units, with the category's base unit and the per-pack quantity |
| Inventory.RestoreForm | src/pages/Inventory.tsx:153-171 | corrected edit: it puts one pack in the stock box, keeps the name, and restores the stored category, defaulting to piece, reading the stored columns; the barcode and category boxes show the stored barcode and category, or "" without one |
| Inventory.RestoreFormAsWritten | src/pages/Inventory.tsx:153-171 | as written, the edit throws exactly when the row's price is null (`product.price.toString()`, checked first) or the row has no camelCase `stockLevel`; otherwise the cost box is blank exactly when the row has no camelCase `costPrice`, and the units are restored as by the corrected edit |
| Inventory.EditOfSavedRowThrows | src/pages/Inventory.tsx:113-161 | as written, editing any product the form saved fails; when the price box held a number it fails on the missing `stockLevel`, since the row carries `stock_level` |
| Inventory.EditResubmitKeepsFields | src/pages/Inventory.tsx:113-161 | with the corrected edit, saving an unchanged form keeps the stored name, price, cost price, discount and alert level |
| Inventory.EditResubmitKeepsLabels | src/pages/Inventory.tsx:113-163 | with the corrected edit, saving an unchanged form keeps a stored barcode (no fresh one is issued) and a stored non-empty category, through the barcode and category boxes |
| Inventory.EditRestoresUnits | src/pages/Inventory.tsx:126-170 | round trip: a stored product with a non-zero per-pack quantity comes back with the same category, base unit and per-pack quantity |
| Inventory.ZeroPackComesBackAsOne | src/pages/Inventory.tsx:170 | a liquid or solid stored with zero units per pack comes back with one: the round trip needs a non-zero pack |
| Inventory.EditResubmitStoresOnePack | src/pages/Inventory.tsx:119-170 | saving an edit without touching the stock box stores exactly one pack as the stock |
| Inventory.MatchesSearch | src/pages/Inventory.tsx:54-58 | the search matches on name or category containing the term ignoring case, or on a barcode containing it (stated on lists by Inventory.FilteredProducts) |
| Inventory.FilteredProducts | src/pages/Inventory.tsx:54-58 | the list holds exactly the products whose name or category contains the term ignoring case, or whose barcode contains it; the empty term keeps all |
| Inventory.FilteredProductsAppend | src/pages/Inventory.tsx:54-58 | the search of two joined lists is the two searches joined, so the result keeps list order |
| Inventory.DeleteProduct | src/pages/Inventory.tsx:173-181 | a failed delete keeps the list; a successful one keeps exactly the products with other ids |
| Inventory.DeleteRemovesExactlyOne | src/pages/Inventory.tsx:179 | deleting the single product with an id removes just it and keeps the others in order |
| OrderHistory.FilteredOrders | src/pages/Orders.tsx:19-28 | the list holds exactly the stored orders that match the search and the payment filter |
| OrderHistory.FilteredOrdersAppend | src/pages/Orders.tsx:19-28 | the filtering of two joined lists is the two filterings joined, so the result keeps stored order |
| OrderHistory.MatchesSearch | src/pages/Orders.tsx:20-23 | an order matches when its id, its customer mobile, or its customer name ignoring case contains the term (stated by OrderHistory.AnonymousOrderFoundById and OrderHistory.ListedExactlyShown) |
| OrderHistory.SortedOrders | src/pages/Orders.tsx:30-32 | the sorted list is a permutation of the filtered list with creation time non-increasing |
| OrderHistory.PaymentFilterChoices | src/pages/Orders.tsx:25 | "all" passes every order; a method passes exactly the orders paid that way |
| OrderHistory.AnonymousOrderFoundById | src/pages/Orders.tsx:20-23 | an order with no name and no mobile is found exactly when its id contains the term |
| OrderHistory.NoFilterKeepsAll | src/pages/Orders.tsx:19-32 | the empty search with "all" keeps every order and lists each one |
| OrderHistory.ListedExactlyShown | src/pages/Orders.tsx:19-32 | an order is listed exactly when it is stored and passes both filters |
| OrderHistory.SameInstantKeepsStoredOrder | src/pages/Orders.tsx:30-32 | sorting newest first keeps the relative order of the orders created at the same instant |
| OrderHistory.ListedSameInstantKeepsStoredOrder | src/pages/Orders.tsx:19-32 | the listed orders created at one instant are exactly the stored orders of that instant passing both filters, in stored order |
| Profile.FromRow | src/pages/Profile.tsx:40-47 | The name is the row's title, or "My Store" when that is null or empty. Each other field takes the row's value, or "" exactly where that column is null. The email is the form's, never the row's |
| Profile.SavePayload | src/pages/Profile.tsx:63-70 | the request carries the owner id and the form's fields under the table's column names |
| Profile.Savable | src/pages/Profile.tsx:57 | the save check: a non-empty name and email (refused otherwise by Profile.Save) |
| Profile.EmailNotStored | src/pages/Profile.tsx:63-70 | forms differing only in email save the same row |
| Profile.Upsert | src/pages/Profile.tsx:71-73 | the owner's row is inserted or replaced; every other owner's row is untouched |
| Profile.Load | src/pages/Profile.tsx:30-50 | a profile is loaded exactly when the owner has a row, and carries the current email |
| Profile.UpsertIdempotent | src/pages/Profile.tsx:71-73 | saving the same payload twice equals saving it once |
| Profile.LatestSaveWins | src/pages/Profile.tsx:71-73 | a second save by the same owner replaces the first, so the owner still has one row |
| Profile.OwnersIndependent | src/pages/Profile.tsx:71-73 | saves by different owners commute |
| Profile.SaveThenLoad | src/pages/Profile.tsx:40-73 | round trip: a profile passing the save check loads back as itself, apart from the email, which comes from the loading form |
| Profile.EmptyNameLoadsAsDefault | src/pages/Profile.tsx:41-65 | a profile saved with an empty name would load back as "My Store" |
| Profile.InitialForm | src/pages/Profile.tsx:17-24 | the first form is "My Store" with the user's email and empty other fields |
| Profile.Open | src/pages/Profile.tsx:16-25 | the page opens with no saved profile, not editing, on the first form |
| Profile.Loaded | src/pages/Profile.tsx:35-50 | a row replaces both the saved profile and the form with the mapped row; an error or a missing row changes nothing |
| Profile.Save | src/pages/Profile.tsx:56-82 | A missing name or email is refused. A save succeeds exactly when the check passes, a user is signed in and the upsert succeeds. Only success changes the page (the form becomes the saved profile, editing ends) and the table |
| Profile.Edit | src/pages/Profile.tsx:108 | editing replaces the form and keeps the saved profile |
| Profile.CancelAsWritten | src/pages/Profile.tsx:84-87 | as written, cancel sets the form to the saved profile, which may be null, and ends editing |
| Profile.CancelBeforeFirstSaveDropsForm | src/pages/Profile.tsx:84-87 | a user who opens the editor and cancels before any load or save is left with a null form |
| Profile.Cancel | src/pages/Profile.tsx:84-87 | cancel returns to the last loaded or saved profile, or to the first form when there is none, and ends editing |
| Profile.CancelDiscardsEdits | src/pages/Profile.tsx:84-87 | edits are discarded by cancel; the corrected cancel agrees with the code whenever a profile exists |
| Profile.CancelAfterSaveKeepsSaved | src/pages/Profile.tsx:78-87 | after a successful save, cancel keeps what was saved |
| Profile.SavedProfileSurvivesReload | src/pages/Profile.tsx:39-78 | reopening the page after a save shows the saved profile |
| Onboard.Validate | src/pages/AdminOnboard.tsx:50-65 | The first failing check is reported, in order: client type and name; a parent org for an outlet; the four user fields; matching passwords |
| Onboard.IsPlatformAdmin | src/pages/AdminOnboard.tsx:17 | the administrator is the signed-in user whose lower-cased email is the platform email (stated by Onboard.AdminCheckIgnoresCase and Onboard.NoUserNoAccess) |
| Onboard.BuildClientPayload | src/pages/AdminOnboard.tsx:70-76 | the parent is set exactly for outlets, an empty location becomes null, and the creator is the signed-in user |
| Onboard.Submit | src/pages/AdminOnboard.tsx:39-98 | A non-administrator or an invalid form sends nothing. The client insert goes first. The sign-up is sent only after the insert succeeded. Success happens exactly when both requests succeed, and yields the new client id. For an administrator with a valid form, the sign-up is sent exactly when the insert succeeded, and a failed insert or sign-up reports that request's own message |
| Onboard.AdminCheckIgnoresCase | src/pages/AdminOnboard.tsx:17 | the administrator check gives the same answer for an email and its lower-case form |
| Onboard.NoUserNoAccess | src/pages/AdminOnboard.tsx:17 | a visitor without an email is refused as not authorised |
| Onboard.OrgNeedsNoParent | src/pages/AdminOnboard.tsx:54-57 | an otherwise valid organisation passes whatever the parent box holds |
| Onboard.MismatchReportedLast | src/pages/AdminOnboard.tsx:50-65 | a password mismatch is reported only when every earlier check passed |
| Onboard.ValidFormIsSent | src/pages/AdminOnboard.tsx:67-77 | for the administrator, a valid form sends the client insert, carrying a parent exactly for outlets |
| Onboard.FailedInsertSendsNoSignUp | src/pages/AdminOnboard.tsx:77-88 | a failed client insert sends no sign-up |
| Text.ToLower | src/pages/Inventory.tsx:55 | lower-casing keeps the length and lower-cases each character |
| Text.ToLowerIdempotent | src/pages/AdminOnboard.tsx:17 | lower-casing twice is lower-casing once |
| Text.Includes | src/pages/Inventory.tsx:55-57 | `s.includes(t)` holds exactly when `t` occurs in `s` at some position |
| Text.EmptyTermMatches | src/pages/Inventory.tsx:54-58 | the empty term occurs in every string, with or without case folding |
| Sorting.SortBy | src/pages/Orders.tsx:30-32 | the sort returns a permutation of its input in non-decreasing key order |
| Sorting.SortIsStable | src/pages/Dashboard.tsx:80-82 | elements with equal keys keep their relative order |
| Sorting.TakeDominates | src/pages/Dashboard.tsx:74-82 | cutting a sorted list after n elements leaves behind only elements that sort no earlier than every kept one |

## Left out

- All Supabase and RPC calls (`select`, `insert`, `update`, `delete`,
  `upsert`, storage upload, `signUp`, `create_order_with_items`): these are
  foreign I/O. Each one is a parameter carrying its reply. Their
  atomicity and server-side effects belong to the backend.
- Toasts, dialogs other than checkout, navigation, and `setLoading`: these
  are presentation only.
- `generateBill` and `printBill` in src/pages/Orders.tsx: file download,
  `window.print` and `toFixed(2)` formatting are output only.
- The product picker search of the cart page (src/pages/Cart.tsx:30-33):
  it is the inventory search without its category clause and is not part
  of this model.
- `handleLogoUpload` in src/pages/Profile.tsx: a storage upload. Its only
  pure effect, setting the logo URL, is an `Edit`.
- The loading of the org list on the onboarding page, and the
  `loadProfile` guard against a missing user: both are I/O.
- The period start of the dashboard (src/pages/Dashboard.tsx:26-42): it
  depends on the local calendar and time zone, so it is an input.
- IEEE-754 rounding: amounts are exact reals. `parseFloat`, `parseInt` and
  `Number` are modelled only through their outcome, a number or `NaN`
  (`None`). The forms' text itself is not kept.
- `toLowerCase` is modelled for ASCII letters only. No Unicode case
  mapping is modelled.
- `Date.now()`-based line ids and barcodes are parameters. The invariant
  asks for a line id not yet in the cart.
- `createdAt` and `updatedAt` of products are not modelled, since no
  modelled operation reads them. Order `createdAt` is an integer
  timestamp rather than a date string.
- `confirmOrder` does not itself reject an empty cart: only
  `handleCheckout` does, before the dialog opens. The model follows the
  code, so `Checkout.BuildOrder` accepts an empty cart.
- Inventory.RestoreForm: it reads the stored `stock_level` and
  `cost_price` columns. As written, `handleEdit` reads the camelCase
  `stockLevel` and `costPrice`, and `product.stockLevel.toString()` throws
  on a row the form saved. That code is `Inventory.RestoreFormAsWritten`,
  listed under Findings. The edit round trips are stated for the
  corrected edit.
- The dashboard and cart pages read `Product` by its declared camelCase
  fields. How their products are loaded is not part of this model.
- Concurrency, such as a double submit of checkout or the stock of two
  terminals, is outside this client code.
- Profile.Loaded: fills the email from the form at the time the row
  arrives. The page's load effect uses the form it captured on mount
  (src/pages/Profile.tsx:27-42), so an email typed while the row was
  loading is kept here but overwritten there. The interleaving of the
  request with typing is not modelled.
- Cart.AddExistingFollowsUpdate: states that adding a listed product
  and raising its line by one agree on acceptance and on the error. It
  does not state that they yield the same cart. That cart is stated for
  valid carts by `Cart.AddExistingIncrements`.
- Dashboard.CalculateStats: its own contract states only bounds and
  membership facts. The exact values of sales, profit and units sold are
  stated by `Dashboard.CountedOrderAdds`, `Dashboard.UncountedOrderIgnored`
  and `Dashboard.NoCountedOrders`.

## Findings

| source | as written | input that shows it | evidently intended | confidence | as-written member | corrected member |
|---|---|---|---|---|---|---|
| src/pages/Profile.tsx:84-87 | `handleCancel` sets the form to `storeProfile`, which is `null` until a profile has been loaded or saved | a first-time user (no `store_profile` row) clicks Edit Profile, then Cancel: the form becomes `null` and the page reads `formData.name` from it | cancel returns to the last saved profile, or to the initial form when none exists | high; not executed | Profile.CancelAsWritten (shown by Profile.CancelBeforeFirstSaveDropsForm) | Profile.Cancel (proved by Profile.CancelDiscardsEdits) |
| src/pages/Inventory.tsx:158-161 | `handleEdit` reads `product.stockLevel.toString()` and `product.costPrice`, but `handleSubmit` stores the row with `stock_level` and `cost_price` (:117, :120) and the list is read back with `select('*')` | click Edit on any product the form saved: `product.stockLevel` is `undefined`, so `.toString()` throws a TypeError before the form or the units are restored | the edit form is filled from the stored `stock_level` and `cost_price` | medium; not executed | Inventory.RestoreFormAsWritten (shown by Inventory.EditOfSavedRowThrows) | Inventory.RestoreForm (proved by Inventory.EditRestoresUnits and Inventory.EditResubmitKeepsFields) |

=== FILE: cart.dfy ===
/** The cart of the point-of-sale page (src/pages/Cart.tsx): a sequence of
    cart lines changed by adding a product, setting a line's quantity and
    removing a line, guarded by the product's stock. A rejected operation
    returns a `Failure` and the page keeps its cart as it was. */
module Cart {
  import opened Wrappers
  import opened Seqs
  import opened Types

  /** Why the stock guard refused an operation. */
  datatype CartError = InsufficientStock | OutOfStock

  function HasProductId(id: string): Product -> bool
  {
    (p: Product) => p.id == id
  }

  function HasItemId(id: string): CartItem -> bool
  {
    (item: CartItem) => item.id == id
  }

  function OtherThanItem(id: string): CartItem -> bool
  {
    (item: CartItem) => item.id != id
  }

  function ForProduct(productId: string): CartItem -> bool
  {
    (item: CartItem) => item.productId == productId
  }

  /** `products.find(p => p.id === id)`. */
  function FindProduct(products: seq<Product>, id: string): (r: Option<Product>)
    ensures r.Some? ==> r.value in products && r.value.id == id
    ensures r.Some? ==> exists i :: 0 <= i < |products| && products[i] == r.value &&
                                  forall j :: 0 <= j < i ==> products[j].id != id
    ensures r.None? <==> forall i :: 0 <= i < |products| ==> products[i].id != id
  {
    match FirstIndex(products, HasProductId(id))
    case None => None
    case Some(i) => Some(products[i])
  }

  /** `cartItems.find(item => item.id === id)`. */
  function FindItem(cart: seq<CartItem>, id: string): (r: Option<CartItem>)
    ensures r.Some? ==> r.value in cart && r.value.id == id
    ensures r.Some? ==> exists i :: 0 <= i < |cart| && cart[i] == r.value &&
                                  forall j :: 0 <= j < i ==> cart[j].id != id
    ensures r.None? <==> forall i :: 0 <= i < |cart| ==> cart[i].id != id
  {
    match FirstIndex(cart, HasItemId(id))
    case None => None
    case Some(i) => Some(cart[i])
  }

  /** The catalog product behind line `itemId`: `products.find(p => p.id === item?.productId)`.
      A missing line has no product id, so no product is found for it. */
  function LineProduct(cart: seq<CartItem>, products: seq<Product>, itemId: string): Option<Product>
  {
    match FindItem(cart, itemId)
    case None => None
    case Some(item) => FindProduct(products, item.productId)
  }

  /** Line ids are pairwise distinct. */
  predicate DistinctIds(a: CartItem, b: CartItem)
  {
    a.id != b.id
  }

  /** Product ids are pairwise distinct: one line per product. */
  predicate DistinctProducts(a: CartItem, b: CartItem)
  {
    a.productId != b.productId
  }

  /** Every line's product is in the catalog and the line holds between one
      unit and the product's stock. */
  predicate WithinStock(item: CartItem, products: seq<Product>)
  {
    match FindProduct(products, item.productId)
    case None => false
    case Some(p) => 1 <= item.quantity <= p.stock
  }

  /** The invariant the stock guard maintains. */
  predicate StockInvariant(cart: seq<CartItem>, products: seq<Product>)
  {
    forall i :: 0 <= i < |cart| ==> WithinStock(cart[i], products)
  }

  /** Every line's total agrees with its price, quantity and discount. */
  predicate TotalsConsistent(cart: seq<CartItem>)
  {
    forall i :: 0 <= i < |cart| ==> cart[i].total == LineTotal(cart[i].price, cart[i].quantity, cart[i].discount)
  }

  /** The cart as the page keeps it: distinct line ids, one line per product,
      stock respected and line totals up to date. */
  predicate Valid(cart: seq<CartItem>, products: seq<Product>)
  {
    && Pairwise(cart, DistinctIds)
    && Pairwise(cart, DistinctProducts)
    && StockInvariant(cart, products)
    && TotalsConsistent(cart)
  }

  /** An accepted edit leaves a valid cart. */
  predicate KeepsValid(r: Result<seq<CartItem>, CartError>, products: seq<Product>)
  {
    r.Success? ==> Valid(r.value, products)
  }

  /** The line a first add creates: one unit, snapshotting name, price and discount. */
  function NewLine(product: Product, freshId: string): (item: CartItem)
    ensures item.id == freshId && item.productId == product.id && item.name == product.name
    ensures item.price == product.price && item.discount == product.discount
    ensures item.quantity == 1
    ensures item.total == LineTotal(product.price, 1, product.discount)
  {
    CartItem(freshId, product.id, product.name, product.price, product.discount, 1,
             product.price * (1.0 - product.discount / 100.0))
  }

  /** A line with quantity `q` and its total recomputed. */
  function Resized(item: CartItem, q: int): CartItem
  {
    item.(quantity := q, total := LineTotal(item.price, q, item.discount))
  }

  /** `removeFromCart`: every line except those with id `itemId`, in order. */
  function RemoveFromCart(cart: seq<CartItem>, itemId: string): (r: seq<CartItem>)
    ensures forall i :: 0 <= i < |r| ==> r[i] in cart && r[i].id != itemId
    ensures forall i :: 0 <= i < |cart| && cart[i].id != itemId ==> cart[i] in r
    ensures (forall i :: 0 <= i < |cart| ==> cart[i].id != itemId) ==> r == cart
  {
    FilterAllKept(cart, OtherThanItem(itemId));
    Filter(cart, OtherThanItem(itemId))
  }

  /** In a cart with distinct line ids, removing line `x` takes out just that
      line and keeps the others in their order. */
  lemma RemoveExactlyOneLine(before: seq<CartItem>, x: CartItem, after: seq<CartItem>)
    requires Pairwise(before + [x] + after, DistinctIds)
    ensures RemoveFromCart(before + [x] + after, x.id) == before + after
  {
    var cart := before + [x] + after;
    var k := |before|;
    assert cart[k] == x;
    forall i | 0 <= i < |before|
      ensures OtherThanItem(x.id)(before[i])
    {
      assert cart[i] == before[i];
      assert DistinctIds(cart[i], cart[k]);
    }
    forall i | 0 <= i < |after|
      ensures OtherThanItem(x.id)(after[i])
    {
      assert cart[k + 1 + i] == after[i];
      assert DistinctIds(cart[k], cart[k + 1 + i]);
    }
    FilterDropsOne(before, x, after, OtherThanItem(x.id));
  }

  /** The `cartItems.map` of `updateQuantity`: line `itemId` gets quantity `q`. */
  function SetLine(cart: seq<CartItem>, itemId: string, q: int): (r: seq<CartItem>)
    ensures |r| == |cart|
    ensures forall i :: 0 <= i < |cart| && cart[i].id == itemId ==>
              r[i] == cart[i].(quantity := q, total := LineTotal(cart[i].price, q, cart[i].discount))
    ensures forall i :: 0 <= i < |cart| && cart[i].id != itemId ==> r[i] == cart[i]
  {
    seq(|cart|, i requires 0 <= i < |cart| => if cart[i].id == itemId then Resized(cart[i], q) else cart[i])
  }

  /** `updateQuantity(itemId, q)`: a non-positive quantity removes the line;
      a quantity above the catalog stock of the line's product is refused;
      otherwise only line `itemId` changes. When the line's product is not in
      the catalog the stock check is skipped. */
  function UpdateQuantity(cart: seq<CartItem>, products: seq<Product>, itemId: string, q: int)
    : (r: Result<seq<CartItem>, CartError>)
    ensures q <= 0 ==> r == Success(RemoveFromCart(cart, itemId))
    ensures r.Failure? <==>
              q > 0 && LineProduct(cart, products, itemId).Some? && q > LineProduct(cart, products, itemId).value.stock
    ensures r.Failure? ==> r.error == InsufficientStock
    ensures q > 0 && r.Success? ==>
              |r.value| == |cart| &&
              (forall i :: 0 <= i < |cart| && cart[i].id != itemId ==> r.value[i] == cart[i]) &&
              (forall i :: 0 <= i < |cart| && cart[i].id == itemId ==>
                 r.value[i] == cart[i].(quantity := q, total := LineTotal(cart[i].price, q, cart[i].discount)))
  {
    if q <= 0 then Success(RemoveFromCart(cart, itemId))
    else
      var product := LineProduct(cart, products, itemId);
      if product.Some? && q > product.value.stock then Failure(InsufficientStock)
      else Success(SetLine(cart, itemId, q))
  }

  /** `cartItems.find(item => item.productId === product.id)`: the first
      line for product `productId`. */
  function ExistingItem(cart: seq<CartItem>, productId: string): (r: Option<CartItem>)
    ensures r.Some? ==> r.value in cart && r.value.productId == productId
    ensures r.None? <==> forall j :: 0 <= j < |cart| ==> cart[j].productId != productId
  {
    match FirstIndex(cart, ForProduct(productId))
    case None => None
    case Some(i) => Some(cart[i])
  }

  /** The line found is the first for the product. */
  lemma ExistingItemIsFirst(cart: seq<CartItem>, productId: string, i: nat)
    requires i < |cart| && cart[i].productId == productId
    requires forall j :: 0 <= j < i ==> cart[j].productId != productId
    ensures ExistingItem(cart, productId).Some? && ExistingItem(cart, productId).value == cart[i]
  {
    var k := FirstIndex(cart, ForProduct(productId));
    assert ForProduct(productId)(cart[i]);
    assert k.Some? && ForProduct(productId)(cart[k.value]);
  }

  /** The branch of `addToCart` for a product already in the cart, with
      line `item` and catalog stock `stock`. */
  function AddToLine(cart: seq<CartItem>, products: seq<Product>, item: CartItem, stock: int)
    : Result<seq<CartItem>, CartError>
  {
    if item.quantity >= stock then Failure(InsufficientStock)
    else UpdateQuantity(cart, products, item.id, item.quantity + 1)
  }

  /** `addToCart(product)`: raises the product's existing line by one, or
      appends a new one-unit line; refused when the line is already at the
      product's stock or when a new product has no stock. */
  function AddToCart(cart: seq<CartItem>, products: seq<Product>, product: Product, freshId: string)
    : (r: Result<seq<CartItem>, CartError>)
    ensures ExistingItem(cart, product.id).None? ==>
              if product.stock <= 0 then r == Failure(OutOfStock)
              else r.Success? && r.value == cart + [NewLine(product, freshId)]
    ensures ExistingItem(cart, product.id).Some? ==>
              ExistingItem(cart, product.id).value.quantity >= product.stock ==> r == Failure(InsufficientStock)
  {
    match ExistingItem(cart, product.id)
    case Some(item) => AddToLine(cart, products, item, product.stock)
    case None =>
      if product.stock <= 0 then Failure(OutOfStock)
      else Success(cart + [NewLine(product, freshId)])
  }

  /** With distinct line ids, the line found by id is the line at that index. */
  lemma FindItemAt(cart: seq<CartItem>, i: nat)
    requires i < |cart|
    requires Pairwise(cart, DistinctIds)
    ensures FindItem(cart, cart[i].id) == Some(cart[i])
  {
    var r := FindItem(cart, cart[i].id);
    assert r.Some?;
  }

  /** With distinct line ids, a line id names at most one index. */
  lemma SameIdSameIndex(cart: seq<CartItem>, i: nat, j: nat)
    requires i < |cart| && j < |cart|
    requires Pairwise(cart, DistinctIds)
    requires cart[i].id == cart[j].id
    ensures i == j
  {
  }

  /** With distinct line ids, an accepted positive quantity change of line
      `i` changes that line alone. */
  lemma ResizeLineAt(cart: seq<CartItem>, products: seq<Product>, i: nat, q: int)
    requires Pairwise(cart, DistinctIds)
    requires i < |cart| && q > 0
    requires UpdateQuantity(cart, products, cart[i].id, q).Success?
    ensures var r := UpdateQuantity(cart, products, cart[i].id, q).value;
            && |r| == |cart|
            && r[i] == Resized(cart[i], q)
            && forall j :: 0 <= j < |cart| && j != i ==> r[j] == cart[j]
  {
    forall j | 0 <= j < |cart| && j != i
      ensures cart[j].id != cart[i].id
    {
      if j < i {
        assert DistinctIds(cart[j], cart[i]);
      } else {
        assert DistinctIds(cart[i], cart[j]);
      }
    }
  }

  /** Raising line `i`, holding at least one unit, of a cart with distinct
      line ids, whose product the catalog holds with stock `stock`: refused
      at stock, otherwise exactly that line goes up by one. */
  lemma AddToLineIncrements(cart: seq<CartItem>, products: seq<Product>, i: nat, stock: int)
    requires Pairwise(cart, DistinctIds)
    requires i < |cart| && cart[i].quantity >= 1
    requires FindProduct(products, cart[i].productId).Some?
    requires FindProduct(products, cart[i].productId).value.stock == stock
    ensures var r := AddToLine(cart, products, cart[i], stock);
            if cart[i].quantity >= stock then r == Failure(InsufficientStock)
            else r.Success? && |r.value| == |cart| &&
                 r.value[i].quantity == cart[i].quantity + 1 &&
                 r.value[i].total == LineTotal(cart[i].price, cart[i].quantity + 1, cart[i].discount) &&
                 forall j :: 0 <= j < |cart| && j != i ==> r.value[j] == cart[j]
  {
    if cart[i].quantity < stock {
      FindItemAt(cart, i);
      assert LineProduct(cart, products, cart[i].id) == FindProduct(products, cart[i].productId);
      ResizeLineAt(cart, products, i, cart[i].quantity + 1);
    }
  }

  /** Adding a product the catalog holds and the cart already lists either
      fails because the line is at stock, or raises exactly that line by one
      and leaves every other line as it was. */
  lemma AddExistingIncrements(cart: seq<CartItem>, products: seq<Product>, product: Product, freshId: string, i: nat)
    requires Valid(cart, products)
    requires FindProduct(products, product.id) == Some(product)
    requires i < |cart| && cart[i].productId == product.id
    ensures var r := AddToCart(cart, products, product, freshId);
            if cart[i].quantity >= product.stock then r == Failure(InsufficientStock)
            else r.Success? && |r.value| == |cart| &&
                 r.value[i].quantity == cart[i].quantity + 1 &&
                 r.value[i].total == LineTotal(cart[i].price, cart[i].quantity + 1, cart[i].discount) &&
                 forall j :: 0 <= j < |cart| && j != i ==> r.value[j] == cart[j]
  {
    forall j | 0 <= j < i
      ensures cart[j].productId != product.id
    {
      assert DistinctProducts(cart[j], cart[i]);
    }
    ExistingItemIsFirst(cart, product.id, i);
    assert WithinStock(cart[i], products);
    AddToLineIncrements(cart, products, i, product.stock);
  }

  /** Removing lines keeps the cart valid. */
  lemma RemovePreservesValid(cart: seq<CartItem>, products: seq<Product>, itemId: string)
    requires Valid(cart, products)
    ensures Valid(RemoveFromCart(cart, itemId), products)
  {
    FilterPairwise(cart, OtherThanItem(itemId), DistinctIds);
    FilterPairwise(cart, OtherThanItem(itemId), DistinctProducts);
    var out := RemoveFromCart(cart, itemId);
    forall k | 0 <= k < |out|
      ensures WithinStock(out[k], products)
      ensures out[k].total == LineTotal(out[k].price, out[k].quantity, out[k].discount)
    {
      var j :| 0 <= j < |cart| && cart[j] == out[k];
      assert WithinStock(cart[j], products);
    }
  }

  /** Re-quantifying the lines with id `itemId` keeps the cart valid when the
      new quantity is positive and within each such line's catalog stock. */
  lemma SetLinePreservesValid(cart: seq<CartItem>, products: seq<Product>, itemId: string, q: int)
    requires Valid(cart, products)
    requires q > 0
    requires forall k :: 0 <= k < |cart| && cart[k].id == itemId ==>
               WithinStock(cart[k].(quantity := q), products)
    ensures Valid(SetLine(cart, itemId, q), products)
  {
    var out := SetLine(cart, itemId, q);
    forall a, b | 0 <= a < b < |out|
      ensures DistinctIds(out[a], out[b]) && DistinctProducts(out[a], out[b])
    {
      assert DistinctIds(cart[a], cart[b]) && DistinctProducts(cart[a], cart[b]);
    }
    forall k | 0 <= k < |out|
      ensures WithinStock(out[k], products)
    {
      assert WithinStock(cart[k], products);
    }
  }

  /** Setting a quantity keeps the cart valid: the guard runs for every line
      because the invariant puts every line's product in the catalog. */
  lemma UpdatePreservesValid(cart: seq<CartItem>, products: seq<Product>, itemId: string, q: int)
    requires Valid(cart, products)
    ensures KeepsValid(UpdateQuantity(cart, products, itemId, q), products)
  {
    if q <= 0 {
      RemovePreservesValid(cart, products, itemId);
    } else if UpdateQuantity(cart, products, itemId, q).Success? {
      forall k | 0 <= k < |cart| && cart[k].id == itemId
        ensures WithinStock(cart[k].(quantity := q), products)
      {
        FindItemAt(cart, k);
        assert WithinStock(cart[k], products);
      }
      SetLinePreservesValid(cart, products, itemId, q);
    }
  }

  /** Appending a one-unit line for a catalog product not yet in the cart,
      under a fresh line id, keeps the cart valid. */
  lemma AppendPreservesValid(cart: seq<CartItem>, products: seq<Product>, product: Product, freshId: string)
    requires Valid(cart, products)
    requires FindProduct(products, product.id) == Some(product)
    requires product.stock > 0
    requires forall i :: 0 <= i < |cart| ==> cart[i].id != freshId && cart[i].productId != product.id
    ensures Valid(cart + [NewLine(product, freshId)], products)
  {
    var line := NewLine(product, freshId);
    var out := cart + [line];
    forall a, b | 0 <= a < b < |out|
      ensures DistinctIds(out[a], out[b]) && DistinctProducts(out[a], out[b])
    {
      if b < |cart| {
        assert DistinctIds(cart[a], cart[b]) && DistinctProducts(cart[a], cart[b]);
      }
    }
    forall k | 0 <= k < |out|
      ensures WithinStock(out[k], products)
    {
      if k < |cart| {
        assert WithinStock(cart[k], products);
      }
    }
  }

  /** Adding a listed product below its stock is accepted or refused
      exactly as the quantity change of its line to one more: the second
      stock check is the catalog's, made by `updateQuantity`. */
  lemma AddExistingFollowsUpdate(cart: seq<CartItem>, products: seq<Product>, product: Product, freshId: string)
    requires ExistingItem(cart, product.id).Some?
    requires ExistingItem(cart, product.id).value.quantity < product.stock
    ensures var item := ExistingItem(cart, product.id).value;
            var r := AddToCart(cart, products, product, freshId);
            var u := UpdateQuantity(cart, products, item.id, item.quantity + 1);
            r.Success? == u.Success? && (r.Failure? ==> r.error == u.error)
  {
  }

  lemma AddExistingPreservesValid(cart: seq<CartItem>, products: seq<Product>, item: CartItem, stock: int)
    requires Valid(cart, products)
    ensures KeepsValid(AddToLine(cart, products, item, stock), products)
  {
    if item.quantity < stock {
      UpdatePreservesValid(cart, products, item.id, item.quantity + 1);
    }
  }

  lemma AddNewPreservesValid(cart: seq<CartItem>, products: seq<Product>, product: Product, freshId: string)
    requires Valid(cart, products)
    requires FindProduct(products, product.id) == Some(product)
    requires forall i :: 0 <= i < |cart| ==> cart[i].id != freshId
    requires ExistingItem(cart, product.id).None?
    ensures KeepsValid(AddToCart(cart, products, product, freshId), products)
  {
    if product.stock > 0 {
      AppendPreservesValid(cart, products, product, freshId);
    }
  }

  /** Adding a catalog product under a fresh line id keeps the cart valid. */
  lemma AddPreservesValid(cart: seq<CartItem>, products: seq<Product>, product: Product, freshId: string)
    requires Valid(cart, products)
    requires FindProduct(products, product.id) == Some(product)
    requires forall i :: 0 <= i < |cart| ==> cart[i].id != freshId
    ensures KeepsValid(AddToCart(cart, products, product, freshId), products)
  {
    match ExistingItem(cart, product.id)
    case Some(item) =>
      AddExistingPreservesValid(cart, products, item, product.stock);
    case None =>
      AddNewPreservesValid(cart, products, product, freshId);
  }

  /** When the line's product is not in the catalog, the guard has nothing to
      check against: any positive quantity is accepted for that line. */
  lemma UnknownProductSkipsGuard(cart: seq<CartItem>, products: seq<Product>, itemId: string, q: int)
    requires q > 0
    requires LineProduct(cart, products, itemId).None?
    ensures UpdateQuantity(cart, products, itemId, q).Success?
  {
  }

  /** One edit of the cart lines, as the page's buttons issue them. */
  datatype CartEvent =
    | AddProduct(product: Product, freshId: string)
    | SetQuantity(itemId: string, quantity: int)
    | RemoveLine(itemId: string)

  /** The cart after an event; a refused event leaves it unchanged. */
  function Step(cart: seq<CartItem>, products: seq<Product>, e: CartEvent): seq<CartItem>
  {
    var r := match e
      case AddProduct(p, id) => AddToCart(cart, products, p, id)
      case SetQuantity(id, q) => UpdateQuantity(cart, products, id, q)
      case RemoveLine(id) => Success(RemoveFromCart(cart, id));
    if r.Success? then r.value else cart
  }

  /** An event the page can issue: an added product is the catalog's entry
      for its id and comes with a line id not yet in the cart. */
  predicate Admissible(cart: seq<CartItem>, products: seq<Product>, e: CartEvent)
  {
    e.AddProduct? ==>
      FindProduct(products, e.product.id) == Some(e.product) &&
      forall i :: 0 <= i < |cart| ==> cart[i].id != e.freshId
  }

  /** Every admissible event keeps the cart valid, in particular
      `1 <= quantity <= stock` for every line. */
  lemma StepPreservesValid(cart: seq<CartItem>, products: seq<Product>, e: CartEvent)
    requires Valid(cart, products)
    requires Admissible(cart, products, e)
    ensures Valid(Step(cart, products, e), products)
  {
    match e
    case AddProduct(p, id) =>
      AddPreservesValid(cart, products, p, id);
    case SetQuantity(id, q) =>
      UpdatePreservesValid(cart, products, id, q);
    case RemoveLine(id) =>
      UpdatePreservesValid(cart, products, id, 0);
  }

  /** `calculateTotals`. */
  datatype Totals = Totals(totalAmount: real, totalDiscount: real, finalAmount: real)

  function Gross(item: CartItem): real
  {
    item.price * item.quantity as real
  }

  function DiscountOf(item: CartItem): real
  {
    item.price * item.quantity as real * item.discount / 100.0
  }

  function LineTotalOf(item: CartItem): real
  {
    item.total
  }

  /** Subtotal, discount and amount charged; the amount charged is the
      subtotal less the discount, and an empty cart costs nothing. The
      subtotal and discount themselves are pinned line by line by
      `TotalsOfOneLine` and `TotalsAppend`. */
  function CalculateTotals(cart: seq<CartItem>): (t: Totals)
    ensures t.finalAmount == t.totalAmount - t.totalDiscount
    ensures |cart| == 0 ==> t == Totals(0.0, 0.0, 0.0)
  {
    var amount := Sum(cart, Gross);
    var discount := Sum(cart, DiscountOf);
    Totals(amount, discount, amount - discount)
  }

  /** A single line contributes its price times quantity to the subtotal
      and that amount times its discount percentage to the discount. */
  lemma TotalsOfOneLine(item: CartItem)
    ensures var t := CalculateTotals([item]);
            var gross := item.price * item.quantity as real;
            t.totalAmount == gross && t.totalDiscount == gross * item.discount / 100.0
  {
    var one := [item];
    assert one[1..] == [];
    assert Sum(one, Gross) == Gross(item);
    assert Sum(one, DiscountOf) == DiscountOf(item);
  }

  /** The totals of two carts joined are the sums of their totals. */
  lemma TotalsAppend(a: seq<CartItem>, b: seq<CartItem>)
    ensures var (ta, tb, t) := (CalculateTotals(a), CalculateTotals(b), CalculateTotals(a + b));
            && t.totalAmount == ta.totalAmount + tb.totalAmount
            && t.totalDiscount == ta.totalDiscount + tb.totalDiscount
            && t.finalAmount == ta.finalAmount + tb.finalAmount
  {
    SumAppend(a, b, Gross);
    SumAppend(a, b, DiscountOf);
  }

  /** The totals do not depend on the order of the cart lines. */
  lemma TotalsOrderIndependent(a: seq<CartItem>, b: seq<CartItem>)
    requires multiset(a) == multiset(b)
    ensures CalculateTotals(a) == CalculateTotals(b)
  {
    SumPermutation(a, b, Gross);
    SumPermutation(a, b, DiscountOf);
  }

  /** With line totals up to date, the amount charged is the sum of the line
      totals shown in the cart. */
  lemma {:induction false} FinalIsSumOfLines(cart: seq<CartItem>)
    requires TotalsConsistent(cart)
    ensures CalculateTotals(cart).finalAmount == Sum(cart, LineTotalOf)
  {
    if |cart| > 0 {
      assert TotalsConsistent(cart[1..]);
      FinalIsSumOfLines(cart[1..]);
      var it := cart[0];
      var g := it.price * it.quantity as real;
      assert Gross(it) - DiscountOf(it) == g * (1.0 - it.discount / 100.0);
    }
  }

  /** With non-negative prices and quantities and discounts between 0 and
      100 percent, the discount lies between nothing and the whole subtotal. */
  lemma {:induction false} DiscountBounded(cart: seq<CartItem>)
    requires forall i :: 0 <= i < |cart| ==> cart[i].price >= 0.0 && cart[i].quantity >= 0
    requires forall i :: 0 <= i < |cart| ==> 0.0 <= cart[i].discount <= 100.0
    ensures 0.0 <= CalculateTotals(cart).totalDiscount <= CalculateTotals(cart).totalAmount
    ensures 0.0 <= CalculateTotals(cart).finalAmount
  {
    if |cart| > 0 {
      DiscountBounded(cart[1..]);
      var it := cart[0];
      var g := it.price * it.quantity as real;
      assert g >= 0.0;
      var f := it.discount / 100.0;
      assert 0.0 <= f <= 1.0;
      assert DiscountOf(it) == g * f;
      assert g - g * f == g * (1.0 - f);
      assert 0.0 <= g * f && 0.0 <= g * (1.0 - f);
    }
  }
}

=== FILE: checkout.dfy ===
/** Checkout on the point-of-sale page (src/pages/Cart.tsx): opening the
    checkout dialog, validating the payment and routing fields, building the
    order-creation payload (`CreateOrderInput` of src/lib/orders.ts) and
    applying the backend's reply. The backend call itself is a parameter. */
module Checkout {
  import opened Wrappers
  import opened Seqs
  import opened Types
  import opened Cart

  /** The checkout fields kept beside the cart lines. */
  datatype CheckoutForm = CheckoutForm(
    customerName: string,
    customerMobile: string,
    paymentMethod: PaymentMethod,
    cashGiven: Input<real>,
    orgClientId: string,
    outletClientId: string)

  datatype CheckoutError = EmptyCart | InsufficientCash | MissingIds | Remote(message: string)

  /** One line of the order-creation request. */
  datatype OrderItemInput = OrderItemInput(
    productId: Option<string>,
    name: string,
    price: real,
    discount: real,
    quantity: int,
    total: real)

  /** The order-creation request. */
  datatype CreateOrderInput = CreateOrderInput(
    orgClientId: string,
    outletClientId: string,
    customerId: Option<string>,
    customerName: Option<string>,
    customerMobile: Option<string>,
    totalAmount: real,
    totalDiscount: real,
    finalAmount: real,
    paymentMethod: PaymentMethod,
    paymentStatus: Option<PaymentStatus>,
    cashGiven: Option<real>,
    changeAmount: Option<real>,
    items: seq<OrderItemInput>)

  /** `s || undefined`: the empty string is sent as an absent field. */
  function Optional(s: string): (r: Option<string>)
    ensures r.None? <==> s == ""
    ensures r.Some? ==> r.value == s
  {
    if s == "" then None else Some(s)
  }

  /** The request line for a cart line. */
  function ToOrderItem(item: CartItem): OrderItemInput
  {
    OrderItemInput(Some(item.productId), item.name, item.price, item.discount, item.quantity, item.total)
  }

  /** The invariant of an order: the amount charged is the subtotal less the
      discount, and a cash payment records cash covering it and the change. */
  predicate WellFormedOrder(p: CreateOrderInput)
  {
    && p.finalAmount == p.totalAmount - p.totalDiscount
    && (p.paymentMethod == Cash ==>
          p.cashGiven.Some? && p.changeAmount.Some? &&
          p.cashGiven.value >= p.finalAmount &&
          p.changeAmount.value == p.cashGiven.value - p.finalAmount)
    && (p.paymentMethod == Upi ==> p.cashGiven.None? && p.changeAmount.None?)
  }

  /** The cash check of `confirmOrder`: unparsable cash, or cash below the
      amount charged, is refused. */
  predicate CashShort(cart: seq<CartItem>, form: CheckoutForm)
  {
    form.paymentMethod == Cash &&
    (form.cashGiven.Value().None? || form.cashGiven.Value().value < CalculateTotals(cart).finalAmount)
  }

  /** Validation and payload of `confirmOrder`, in the page's order: cash
      first, then the organisation and outlet ids. */
  function BuildOrder(cart: seq<CartItem>, form: CheckoutForm): (r: Result<CreateOrderInput, CheckoutError>)
    ensures r == Failure(InsufficientCash) <==> CashShort(cart, form)
    ensures r == Failure(MissingIds) <==>
              !CashShort(cart, form) && (form.orgClientId == "" || form.outletClientId == "")
    ensures r.Failure? ==> r.error == InsufficientCash || r.error == MissingIds
    ensures r.Success? ==>
              var p := r.value;
              && WellFormedOrder(p)
              && p.orgClientId == form.orgClientId && p.outletClientId == form.outletClientId
              && p.orgClientId != "" && p.outletClientId != ""
              && p.customerId.None?
              && p.customerName == Optional(form.customerName)
              && p.customerMobile == Optional(form.customerMobile)
              && p.paymentMethod == form.paymentMethod
              && p.paymentStatus == Some(Completed)
              && p.totalAmount == CalculateTotals(cart).totalAmount
              && p.totalDiscount == CalculateTotals(cart).totalDiscount
              && (p.paymentMethod == Cash ==> p.cashGiven == form.cashGiven.Value() && p.changeAmount.value >= 0.0)
              && |p.items| == |cart|
              && forall i :: 0 <= i < |cart| ==> p.items[i] == ToOrderItem(cart[i])
  {
    var totals := CalculateTotals(cart);
    if CashShort(cart, form) then Failure(InsufficientCash)
    else if form.orgClientId == "" || form.outletClientId == "" then Failure(MissingIds)
    else
      var cash := if form.paymentMethod == Cash then form.cashGiven.Value() else None;
      var change := if form.paymentMethod == Cash then Some(cash.value - totals.finalAmount) else None;
      Success(CreateOrderInput(
        form.orgClientId, form.outletClientId, None,
        Optional(form.customerName), Optional(form.customerMobile),
        totals.totalAmount, totals.totalDiscount, totals.finalAmount,
        form.paymentMethod, Some(Completed), cash, change,
        seq(|cart|, i requires 0 <= i < |cart| => ToOrderItem(cart[i]))))
  }

  function ItemTotal(item: OrderItemInput): real
  {
    item.total
  }

  /** For a cart whose line totals are up to date, the request's amount
      charged equals the sum of its own line totals. */
  lemma PayloadAgreesWithItems(cart: seq<CartItem>, form: CheckoutForm)
    requires TotalsConsistent(cart)
    requires BuildOrder(cart, form).Success?
    ensures var p := BuildOrder(cart, form).value;
            p.finalAmount == Sum(p.items, ItemTotal)
  {
    var p := BuildOrder(cart, form).value;
    FinalIsSumOfLines(cart);
    SumOfMapped(cart, p.items);
  }

  lemma {:induction false} SumOfMapped(cart: seq<CartItem>, items: seq<OrderItemInput>)
    requires |items| == |cart|
    requires forall i :: 0 <= i < |cart| ==> items[i] == ToOrderItem(cart[i])
    ensures Sum(items, ItemTotal) == Sum(cart, LineTotalOf)
  {
    if |cart| > 0 {
      SumOfMapped(cart[1..], items[1..]);
    }
  }

  /** The checkout page state: cart lines, checkout fields and whether the
      checkout dialog is open. */
  datatype Session = Session(cart: seq<CartItem>, form: CheckoutForm, dialogOpen: bool)

  /** `clearCart`: empties the cart and the customer and cash fields; payment
      method and routing ids stay. */
  function ClearCart(s: Session): (t: Session)
    ensures t.cart == []
    ensures t.form.customerName == "" && t.form.customerMobile == "" && t.form.cashGiven == Blank
    ensures t.form.paymentMethod == s.form.paymentMethod
    ensures t.form.orgClientId == s.form.orgClientId && t.form.outletClientId == s.form.outletClientId
    ensures t.dialogOpen == s.dialogOpen
  {
    s.(cart := [], form := s.form.(customerName := "", customerMobile := "", cashGiven := Blank))
  }

  /** `handleCheckout`: the dialog opens only for a non-empty cart. */
  function HandleCheckout(s: Session): (r: Result<Session, CheckoutError>)
    ensures r.Failure? <==> |s.cart| == 0
    ensures r.Failure? ==> r.error == EmptyCart
    ensures r.Success? ==> r.value == s.(dialogOpen := true)
  {
    if |s.cart| == 0 then Failure(EmptyCart) else Success(s.(dialogOpen := true))
  }

  /** What the order-creation call answered. */
  datatype Reply = Created(orderId: string) | Rejected(message: string)

  /** The result of confirming: the new page state, the request sent (if
      any) and what the user is told. */
  datatype Confirmation = Confirmation(
    session: Session,
    request: Option<CreateOrderInput>,
    outcome: Result<string, CheckoutError>)

  /** `confirmOrder` with the backend's `reply`: no request is sent when
      validation fails; any failure leaves the page state untouched; only a
      created order clears the cart and closes the dialog. */
  function ConfirmOrder(s: Session, reply: Reply): (c: Confirmation)
    ensures BuildOrder(s.cart, s.form).Failure? ==>
              c.request.None? && c.session == s && c.outcome == Failure(BuildOrder(s.cart, s.form).error)
    ensures BuildOrder(s.cart, s.form).Success? ==> c.request == Some(BuildOrder(s.cart, s.form).value)
    ensures c.outcome.Failure? ==> c.session == s
    ensures c.outcome.Success? <==> BuildOrder(s.cart, s.form).Success? && reply.Created?
    ensures c.outcome.Success? ==>
              c.outcome.value == reply.orderId &&
              c.session.cart == [] && !c.session.dialogOpen &&
              c.session.form.cashGiven == Blank &&
              c.session.form.customerName == "" && c.session.form.customerMobile == ""
    ensures c.outcome.Success? ==> c.session == ClearCart(s).(dialogOpen := false)
  {
    match BuildOrder(s.cart, s.form)
    case Failure(e) => Confirmation(s, None, Failure(e))
    case Success(p) =>
      match reply
      case Rejected(m) => Confirmation(s, Some(p), Failure(Remote(m)))
      case Created(id) => Confirmation(ClearCart(s).(dialogOpen := false), Some(p), Success(id))
  }

  /** A created order leaves the empty cart, which is valid for any catalog;
      every other outcome leaves the cart as it was. */
  lemma ConfirmKeepsValid(s: Session, reply: Reply, products: seq<Product>)
    requires Valid(s.cart, products)
    ensures Valid(ConfirmOrder(s, reply).session.cart, products)
    ensures ConfirmOrder(s, reply).outcome.Success? ==> ConfirmOrder(s, reply).session.cart == []
  {
  }

  /** `changeAmount`: `cash - finalAmount` once cash is typed (`None` when it
      is not a number), otherwise 0. */
  function ChangeAmount(s: Session): Option<real>
  {
    if s.form.paymentMethod == Cash && s.form.cashGiven.Typed? then
      match s.form.cashGiven.parsed
      case None => None
      case Some(cash) => Some(cash - CalculateTotals(s.cart).finalAmount)
    else Some(0.0)
  }

  /** The change shown under the cash box, `Math.max(0, changeAmount)`:
      never negative, so cash short of the amount shows 0; `NaN` stays
      `NaN`. */
  function DisplayedChange(s: Session): (r: Option<real>)
    ensures r.None? <==> ChangeAmount(s).None?
    ensures r.Some? ==> r.value >= 0.0
    ensures r.Some? && ChangeAmount(s).value >= 0.0 ==> r == ChangeAmount(s)
    ensures r.Some? && ChangeAmount(s).value < 0.0 ==> r.value == 0.0
  {
    match ChangeAmount(s)
    case None => None
    case Some(c) => Some(if c < 0.0 then 0.0 else c)
  }

  /** For an accepted cash payment, the change recorded in the request is the
      change the page displayed, and it is never negative. */
  lemma RecordedChangeIsDisplayed(s: Session)
    requires s.form.paymentMethod == Cash
    requires BuildOrder(s.cart, s.form).Success?
    ensures DisplayedChange(s) == ChangeAmount(s) == BuildOrder(s.cart, s.form).value.changeAmount
    ensures DisplayedChange(s).value >= 0.0
  {
    assert s.form.cashGiven.Typed?;
  }

  /** Typed cash short of the amount charged shows a change of 0 and is
      refused: the clamp hides the shortfall that the cash check reports. */
  lemma ShortCashShowsZero(s: Session)
    requires s.form.paymentMethod == Cash
    requires s.form.cashGiven.Typed? && s.form.cashGiven.parsed.Some?
    requires s.form.cashGiven.parsed.value < CalculateTotals(s.cart).finalAmount
    ensures DisplayedChange(s) == Some(0.0)
    ensures BuildOrder(s.cart, s.form) == Failure(InsufficientCash)
  {
  }
}

=== FILE: dashboard.dfy ===
/** The dashboard statistics (`calculateStats` of src/pages/Dashboard.tsx):
    sales and estimated profit over the completed orders of a period, the
    low-stock list, units sold per product, and the five fastest and five
    slowest sellers. The period's start is an input, in milliseconds. */
module Dashboard {
  import opened Wrappers
  import opened Seqs
  import opened Sorting
  import opened Types
  import Cart

  /** Orders that count: created at or after `startDate` and completed. */
  function Counted(startDate: int): Order -> bool
  {
    (o: Order) => o.createdAt >= startDate && o.paymentStatus == Completed
  }

  /** The orders the statistics are computed from, in their original order. */
  function FilteredOrders(orders: seq<Order>, startDate: int): (r: seq<Order>)
    ensures forall i :: 0 <= i < |r| ==> r[i] in orders && r[i].createdAt >= startDate && r[i].paymentStatus == Completed
    ensures forall i :: 0 <= i < |orders| && orders[i].createdAt >= startDate && orders[i].paymentStatus == Completed ==>
              orders[i] in r
  {
    Filter(orders, Counted(startDate))
  }

  function FinalAmount(o: Order): real
  {
    o.finalAmount
  }

  /** Period sales: the sum of the amounts charged. */
  function Sales(filtered: seq<Order>): real
  {
    Sum(filtered, FinalAmount)
  }

  /** The cost used for a sold line: the product's cost price, or 70% of the
      selling price when the product is unknown or its cost price is absent
      or zero (`product?.costPrice || item.price * 0.7`). */
  function CostPrice(item: CartItem, products: seq<Product>): real
  {
    match Cart.FindProduct(products, item.productId)
    case Some(p) =>
      if p.costPrice.Some? && p.costPrice.value != 0.0 then p.costPrice.value else item.price * 0.7
    case None => item.price * 0.7
  }

  /** Whether the profit of `item` falls back to the assumed 30% margin. */
  predicate UsesFallbackCost(item: CartItem, products: seq<Product>)
  {
    match Cart.FindProduct(products, item.productId)
    case Some(p) => p.costPrice.None? || p.costPrice.value == 0.0
    case None => true
  }

  function ItemProfit(products: seq<Product>): CartItem -> real
  {
    (item: CartItem) => (item.price - CostPrice(item, products)) * item.quantity as real
  }

  function OrderProfit(products: seq<Product>): Order -> real
  {
    (o: Order) => Sum(o.items, ItemProfit(products))
  }

  /** Estimated profit: over every line of every counted order,
      `(price - cost) * quantity`. */
  function Profit(filtered: seq<Order>, products: seq<Product>): real
  {
    Sum(filtered, OrderProfit(products))
  }

  /** Without a usable cost price a line's profit is 30% of its gross value;
      with one it is the margin over that cost price. */
  lemma LineProfit(item: CartItem, products: seq<Product>)
    ensures UsesFallbackCost(item, products) ==>
              ItemProfit(products)(item) == 0.3 * item.price * item.quantity as real
    ensures !UsesFallbackCost(item, products) ==>
              var p := Cart.FindProduct(products, item.productId).value;
              ItemProfit(products)(item) == (item.price - p.costPrice.value) * item.quantity as real
  {
    if UsesFallbackCost(item, products) {
      assert item.price - item.price * 0.7 == 0.3 * item.price;
    }
  }

  function IsLowStock(p: Product): bool
  {
    p.stock <= p.stockLevel
  }

  /** The products at or below their alert level, in catalog order. */
  function LowStockItems(products: seq<Product>): (r: seq<Product>)
    ensures forall i :: 0 <= i < |r| ==> r[i] in products && r[i].stock <= r[i].stockLevel
    ensures forall i :: 0 <= i < |products| && products[i].stock <= products[i].stockLevel ==> products[i] in r
    ensures (forall i :: 0 <= i < |products| ==> products[i].stock <= products[i].stockLevel) ==> r == products
  {
    FilterAllKept(products, IsLowStock);
    Filter(products, IsLowStock)
  }

  /** The low-stock list of a catalog split in two is the two lists joined:
      the list follows catalog order. */
  lemma LowStockAppend(a: seq<Product>, b: seq<Product>)
    ensures LowStockItems(a + b) == LowStockItems(a) + LowStockItems(b)
  {
    FilterAppend(a, b, IsLowStock);
  }

  function Quantity(item: CartItem): int
  {
    item.quantity
  }

  /** Units of product `productId` in one order. */
  function SoldIn(productId: string): Order -> int
  {
    (o: Order) => SumInt(Filter(o.items, Cart.ForProduct(productId)), Quantity)
  }

  /** Units of product `productId` over the counted orders. */
  function TotalSold(filtered: seq<Order>, productId: string): int
  {
    SumInt(filtered, SoldIn(productId))
  }

  /** `productSales`: one entry per catalog product, in catalog order. */
  function ProductSales(products: seq<Product>, filtered: seq<Order>): (r: seq<ProductSale>)
    ensures |r| == |products|
    ensures forall i :: 0 <= i < |r| ==> r[i].product == products[i]
    ensures forall i :: 0 <= i < |r| ==> r[i].totalSold == TotalSold(filtered, products[i].id)
  {
    seq(|products|, i requires 0 <= i < |products| => ProductSale(products[i], TotalSold(filtered, products[i].id)))
  }

  function Sold(e: ProductSale): int
  {
    e.totalSold
  }

  function HasSales(e: ProductSale): bool
  {
    e.totalSold > 0
  }

  /** The entries that may be fast movers. */
  function Selling(sales: seq<ProductSale>): seq<ProductSale>
  {
    Filter(sales, HasSales)
  }

  /** `fastStockoutProducts`: the top five sellers, most sold first; only
      products that sold something qualify. */
  function FastMovers(sales: seq<ProductSale>): (r: seq<ProductSale>)
    ensures |r| == if |Selling(sales)| < 5 then |Selling(sales)| else 5
    ensures forall i :: 0 <= i < |r| ==> r[i] in sales && r[i].totalSold > 0
    ensures forall i, j :: 0 <= i < j < |r| ==> r[i].totalSold >= r[j].totalSold
    ensures r <= SortBy(Selling(sales), Descending(Sold))
  {
    var r := Take(SortBy(Selling(sales), Descending(Sold)), 5);
    FastMoversFacts(sales, r);
    r
  }

  /** The facts `FastMovers` promises, about its defining expression. */
  lemma FastMoversFacts(sales: seq<ProductSale>, r: seq<ProductSale>)
    requires r == Take(SortBy(Selling(sales), Descending(Sold)), 5)
    ensures |r| == if |Selling(sales)| < 5 then |Selling(sales)| else 5
    ensures forall i :: 0 <= i < |r| ==> r[i] in sales && r[i].totalSold > 0
    ensures forall i, j :: 0 <= i < j < |r| ==> r[i].totalSold >= r[j].totalSold
  {
    var selling := Selling(sales);
    var sorted := SortBy(selling, Descending(Sold));
    assert |sorted| == |multiset(sorted)| == |multiset(selling)| == |selling|;
    DescendingOrder(sorted, Sold);
    forall i | 0 <= i < |r|
      ensures r[i] in sales && r[i].totalSold > 0
    {
      assert r[i] == sorted[i];
      assert sorted[i] in multiset(selling);
      var k :| 0 <= k < |selling| && selling[k] == sorted[i];
      assert HasSales(selling[k]);
    }
    forall i, j | 0 <= i < j < |r|
      ensures r[i].totalSold >= r[j].totalSold
    {
      assert r[i] == sorted[i] && r[j] == sorted[j];
    }
  }

  /** `lessSoldProducts`: the five least sold products, least first; products
      that sold nothing qualify. */
  function SlowMovers(sales: seq<ProductSale>): (r: seq<ProductSale>)
    ensures |r| <= 5 && |r| == if |sales| < 5 then |sales| else 5
    ensures forall i :: 0 <= i < |r| ==> r[i] in sales
    ensures forall i, j :: 0 <= i < j < |r| ==> r[i].totalSold <= r[j].totalSold
    ensures r <= SortBy(sales, Sold)
  {
    var r := Take(SortBy(sales, Sold), 5);
    SlowMoversFacts(sales, r);
    r
  }

  /** The facts `SlowMovers` promises, about its defining expression. */
  lemma SlowMoversFacts(sales: seq<ProductSale>, r: seq<ProductSale>)
    requires r == Take(SortBy(sales, Sold), 5)
    ensures forall i :: 0 <= i < |r| ==> r[i] in sales
    ensures forall i, j :: 0 <= i < j < |r| ==> r[i].totalSold <= r[j].totalSold
  {
    var sorted := SortBy(sales, Sold);
    forall i | 0 <= i < |r|
      ensures r[i] in sales
    {
      assert r[i] == sorted[i];
      assert sorted[i] in multiset(sales);
    }
    forall i, j | 0 <= i < j < |r|
      ensures r[i].totalSold <= r[j].totalSold
    {
      assert r[i] == sorted[i] && r[j] == sorted[j];
      assert Sold(sorted[i]) <= Sold(sorted[j]);
    }
  }

  /** `calculateStats` for a period starting at `startDate`. */
  function CalculateStats(products: seq<Product>, orders: seq<Order>, startDate: int): (s: DashboardStats)
    ensures |s.fastStockoutProducts| <= 5 && |s.lessSoldProducts| <= 5
    ensures |products| >= 5 ==> |s.lessSoldProducts| == 5
    ensures forall i :: 0 <= i < |s.lowStockItems| ==>
              s.lowStockItems[i] in products && s.lowStockItems[i].stock <= s.lowStockItems[i].stockLevel
    ensures forall i :: 0 <= i < |s.fastStockoutProducts| ==> s.fastStockoutProducts[i].totalSold > 0
  {
    var filtered := FilteredOrders(orders, startDate);
    var sales := ProductSales(products, filtered);
    DashboardStats(
      Sales(filtered),
      Profit(filtered, products),
      LowStockItems(products),
      FastMovers(sales),
      SlowMovers(sales))
  }

  /** Only counted orders contribute: adding an order from before the period
      or one that is not completed changes no statistic. */
  lemma UncountedOrderIgnored(products: seq<Product>, orders: seq<Order>, o: Order, startDate: int)
    requires o.createdAt < startDate || o.paymentStatus != Completed
    ensures CalculateStats(products, orders + [o], startDate) == CalculateStats(products, orders, startDate)
  {
    FilterAppend(orders, [o], Counted(startDate));
    assert Filter([o], Counted(startDate)) == [];
    assert FilteredOrders(orders + [o], startDate) == FilteredOrders(orders, startDate);
  }

  /** A counted order adds exactly its amount charged to the sales, its line
      profits to the profit, and its units to each product's total. */
  lemma CountedOrderAdds(products: seq<Product>, orders: seq<Order>, o: Order, startDate: int, productId: string)
    requires o.createdAt >= startDate && o.paymentStatus == Completed
    ensures var before := FilteredOrders(orders, startDate);
            var after := FilteredOrders(orders + [o], startDate);
            && Sales(after) == Sales(before) + o.finalAmount
            && Profit(after, products) == Profit(before, products) + Sum(o.items, ItemProfit(products))
            && TotalSold(after, productId) == TotalSold(before, productId) + SoldIn(productId)(o)
  {
    var before := FilteredOrders(orders, startDate);
    FilterAppend(orders, [o], Counted(startDate));
    assert Filter([o], Counted(startDate)) == [o];
    var after := before + [o];
    assert FilteredOrders(orders + [o], startDate) == after;
    SumAppend(before, [o], FinalAmount);
    SumAppend(before, [o], OrderProfit(products));
    SumIntAppend(before, [o], SoldIn(productId));
  }

  /** With no counted orders every total is zero. */
  lemma NoCountedOrders(products: seq<Product>, orders: seq<Order>, startDate: int)
    requires forall i :: 0 <= i < |orders| ==> orders[i].createdAt < startDate || orders[i].paymentStatus != Completed
    ensures CalculateStats(products, orders, startDate).todaySales == 0.0
    ensures CalculateStats(products, orders, startDate).profit == 0.0
    ensures CalculateStats(products, orders, startDate).fastStockoutProducts == []
  {
    FilterNone(orders, Counted(startDate));
    var filtered := FilteredOrders(orders, startDate);
    var sales := ProductSales(products, filtered);
    FilterNone(sales, HasSales);
  }

  /** Quantities that are never negative give totals that are never negative. */
  lemma {:induction false} SoldNonNegative(filtered: seq<Order>, productId: string)
    requires forall i :: 0 <= i < |filtered| ==> forall k :: 0 <= k < |filtered[i].items| ==> filtered[i].items[k].quantity >= 0
    ensures TotalSold(filtered, productId) >= 0
  {
    if |filtered| > 0 {
      SoldNonNegative(filtered[1..], productId);
      ItemsNonNegative(Filter(filtered[0].items, Cart.ForProduct(productId)));
    }
  }

  lemma {:induction false} ItemsNonNegative(items: seq<CartItem>)
    requires forall k :: 0 <= k < |items| ==> items[k].quantity >= 0
    ensures SumInt(items, Quantity) >= 0
  {
    if |items| > 0 {
      ItemsNonNegative(items[1..]);
    }
  }

  /** A product that sold nothing never appears among the fast movers. */
  lemma UnsoldNeverFast(sales: seq<ProductSale>, e: ProductSale)
    requires e.totalSold <= 0
    ensures e !in FastMovers(sales)
  {
  }

  /** Top five: every seller left out of the fast movers sold no more than
      any fast mover. */
  lemma FastMoversAreTop(sales: seq<ProductSale>)
    ensures var r := FastMovers(sales);
            forall i, j :: 0 <= i < |r| && 0 <= j < |Selling(sales)| && Selling(sales)[j] !in r ==>
              Selling(sales)[j].totalSold <= r[i].totalSold
  {
    var sorted := SortBy(Selling(sales), Descending(Sold));
    DescendingOrder(sorted, Sold);
    var r := FastMovers(sales);
    forall i, j | 0 <= i < |r| && 0 <= j < |Selling(sales)| && Selling(sales)[j] !in r
      ensures Selling(sales)[j].totalSold <= r[i].totalSold
    {
      var x := Selling(sales)[j];
      assert x in multiset(sorted);
      var k :| 0 <= k < |sorted| && sorted[k] == x;
      assert r[i] == sorted[i];
    }
  }

  /** Bottom five: every product left out of the slow movers sold no less
      than any slow mover. */
  lemma SlowMoversAreBottom(sales: seq<ProductSale>)
    ensures var r := SlowMovers(sales);
            forall i, j :: 0 <= i < |r| && 0 <= j < |sales| && sales[j] !in r ==>
              r[i].totalSold <= sales[j].totalSold
  {
    var sorted := SortBy(sales, Sold);
    var r := SlowMovers(sales);
    forall i, j | 0 <= i < |r| && 0 <= j < |sales| && sales[j] !in r
      ensures r[i].totalSold <= sales[j].totalSold
    {
      var x := sales[j];
      assert x in multiset(sorted);
      var k :| 0 <= k < |sorted| && sorted[k] == x;
      assert r[i] == sorted[i];
    }
  }

  /** Zero-sold products are eligible as slow movers: when something sold
      nothing and no total is negative, the slowest entry sold nothing. */
  lemma UnsoldLeadsSlowMovers(sales: seq<ProductSale>, j: nat)
    requires j < |sales| && sales[j].totalSold == 0
    requires forall i :: 0 <= i < |sales| ==> sales[i].totalSold >= 0
    ensures |SlowMovers(sales)| > 0 && SlowMovers(sales)[0].totalSold == 0
  {
    var sorted := SortBy(sales, Sold);
    assert sales[j] in multiset(sorted);
    var k :| 0 <= k < |sorted| && sorted[k] == sales[j];
    assert sorted[0] in multiset(sales);
    if k > 0 {
      assert Sold(sorted[0]) <= Sold(sorted[k]);
    }
  }

  /** The same at the level of the statistics: with no negative quantity in
      any order, a catalog product that sold nothing in the period makes the
      first slow mover one that sold nothing. */
  lemma UnsoldProductLeadsSlowMovers(products: seq<Product>, orders: seq<Order>, startDate: int, j: nat)
    requires j < |products|
    requires forall i :: 0 <= i < |orders| ==> forall k :: 0 <= k < |orders[i].items| ==> orders[i].items[k].quantity >= 0
    requires TotalSold(FilteredOrders(orders, startDate), products[j].id) == 0
    ensures var s := CalculateStats(products, orders, startDate);
            |s.lessSoldProducts| > 0 && s.lessSoldProducts[0].totalSold == 0
  {
    var filtered := FilteredOrders(orders, startDate);
    forall i | 0 <= i < |filtered|
      ensures forall k :: 0 <= k < |filtered[i].items| ==> filtered[i].items[k].quantity >= 0
    {
      var m :| 0 <= m < |orders| && orders[m] == filtered[i];
    }
    var sales := ProductSales(products, filtered);
    forall i | 0 <= i < |sales|
      ensures sales[i].totalSold >= 0
    {
      SoldNonNegative(filtered, products[i].id);
    }
    UnsoldLeadsSlowMovers(sales, j);
  }

  /** Ties keep catalog order: among entries with the same total the slow
      movers are ordered as the products are. */
  lemma SlowMoverTiesKeepCatalogOrder(sales: seq<ProductSale>, k: int)
    ensures Filter(SortBy(sales, Sold), KeyIs(Sold, k)) == Filter(sales, KeyIs(Sold, k))
  {
    SortIsStable(sales, Sold, k);
  }
}

=== FILE: inventory.dfy ===
/** Inventory management (src/pages/Inventory.tsx): the unit normaliser that
    turns packs entered in ml, l, g, kg or pieces into stock in a base unit,
    the product form's submit payload, restoring the form from a stored
    product for editing, the search box and deletion. The database writes
    and reads are left to the caller. */
module Inventory {
  import opened Wrappers
  import opened Seqs
  import opened Types
  import opened Text

  datatype MeasureCategory = Liquid | Solid | Piece

  datatype Unit = Ml | L | G | Kg | Pcs

  /** The unit fields of the form: category, unit and pack size, the last
      as the number `Number(packSize)` gives (`None` for `NaN`). */
  datatype Measure = Measure(category: MeasureCategory, unit: Unit, packSize: Option<real>)

  /** The text fields of the product form. */
  datatype ProductForm = ProductForm(
    name: string,
    price: Input<real>,
    costPrice: Input<real>,
    discount: Input<real>,
    stock: Input<int>,
    stockLevel: Input<int>,
    category: string,
    barcode: string)

  /** A product row as the form writes it and reads it back; the unit fields
      are absent on rows written before units existed. */
  datatype ProductRecord = ProductRecord(
    name: string,
    price: Option<real>,
    costPrice: Option<real>,
    discount: real,
    stock: Option<real>,
    stockLevel: Option<int>,
    category: Option<string>,
    barcode: string,
    createdBy: string,
    orgClientId: Option<string>,
    measureCategory: Option<MeasureCategory>,
    baseUnit: Option<Unit>,
    quantityPerItem: Option<real>)

  /** The unit stock is kept in for each category. */
  function BaseUnit(c: MeasureCategory): (u: Unit)
    ensures u == Ml <==> c == Liquid
    ensures u == G <==> c == Solid
    ensures u == Pcs <==> c == Piece
  {
    match c
    case Liquid => Ml
    case Solid => G
    case Piece => Pcs
  }

  /** The units the unit selector offers for each category. */
  predicate UnitAllowed(c: MeasureCategory, u: Unit)
  {
    match c
    case Liquid => u == Ml || u == L
    case Solid => u == G || u == Kg
    case Piece => u == Pcs
  }

  /** Base units in one pack: the pack size, times 1000 for l and kg; one
      for pieces whatever the pack size. */
  function QuantityPerItem(m: Measure): (r: Option<real>)
    ensures m.category == Piece ==> r == Some(1.0)
    ensures m.category != Piece && m.packSize.None? ==> r.None?
    ensures m.category != Piece && m.packSize.Some? ==>
              r == Some(m.packSize.value * (if LargeUnit(m) then 1000.0 else 1.0))
  {
    match m.category
    case Liquid =>
      if m.unit == L then (if m.packSize.Some? then Some(m.packSize.value * 1000.0) else None) else m.packSize
    case Solid =>
      if m.unit == Kg then (if m.packSize.Some? then Some(m.packSize.value * 1000.0) else None) else m.packSize
    case Piece => Some(1.0)
  }

  /** Litres and kilograms, the units a thousand base units large. */
  predicate LargeUnit(m: Measure)
  {
    (m.category == Liquid && m.unit == L) || (m.category == Solid && m.unit == Kg)
  }

  /** `toBase(qty)`: `qty` packs in base units; an unparsable count or pack
      size gives `NaN`. */
  function ToBase(m: Measure, qty: Option<int>): (r: Option<real>)
    ensures qty.None? ==> r.None?
    ensures m.category == Piece && qty.Some? ==> r == Some(qty.value as real)
    ensures qty.Some? ==> r == Scale(QuantityPerItem(m), qty.value as real)
  {
    if qty.None? then None
    else
      var q := qty.value as real;
      match m.category
      case Liquid =>
        var size := if m.unit == L then Scale(m.packSize, 1000.0) else m.packSize;
        Scale(size, q)
      case Solid =>
        var size := if m.unit == Kg then Scale(m.packSize, 1000.0) else m.packSize;
        Scale(size, q)
      case Piece => Some(q)
  }

  /** Multiplication that keeps `NaN`. */
  function Scale(x: Option<real>, k: real): Option<real>
  {
    if x.Some? then Some(x.value * k) else None
  }

  /** A litre is a thousand millilitres and a kilogram a thousand grams:
      the same packs entered in l or kg give a thousand times the stock
      entered in ml or g. */
  lemma LargeUnitsAreThousandfold(m: Measure, qty: Option<int>)
    requires LargeUnit(m)
    ensures ToBase(m, qty) == Scale(ToBase(m.(unit := BaseUnit(m.category)), qty), 1000.0)
  {
    if qty.Some? && m.packSize.Some? {
      var q := qty.value as real;
      var p := m.packSize.value;
      var small := m.(unit := BaseUnit(m.category));
      assert QuantityPerItem(small) == Some(p);
      assert QuantityPerItem(m) == Some(p * 1000.0);
      var big := ToBase(m, qty);
      var scaled := Scale(ToBase(small, qty), 1000.0);
      assert big.Some? && big.value == p * 1000.0 * q;
      assert scaled.Some? && scaled.value == p * q * 1000.0;
      assert p * 1000.0 * q == p * q * 1000.0;
    }
  }

  /** Choosing a measure category resets the unit to the category's base
      unit and the pack size to one. */
  function ChangeCategory(m: Measure, c: MeasureCategory): (r: Measure)
    ensures r.category == c && r.unit == BaseUnit(c) && r.packSize == Some(1.0)
    ensures UnitAllowed(c, r.unit)
    ensures QuantityPerItem(r) == Some(1.0)
    ensures forall q :: ToBase(r, Some(q)) == Some(q as real)
  {
    Measure(c, BaseUnit(c), Some(1.0))
  }

  datatype SubmitError = MissingFields | NotAuthenticated

  /** `handleSubmit`'s validation and payload: name, price and stock must be
      filled and a user signed in; the discount defaults to 0, the alert
      level to 5, the barcode to a generated one, and the stock is stored in
      base units. */
  function BuildRecord(form: ProductForm, m: Measure, orgClientId: string, user: Option<string>, freshBarcode: string)
    : (r: Result<ProductRecord, SubmitError>)
    ensures r == Failure(MissingFields) <==> form.name == "" || form.price.Blank? || form.stock.Blank?
    ensures r == Failure(NotAuthenticated) <==>
              form.name != "" && form.price.Typed? && form.stock.Typed? && user.None?
    ensures r.Success? ==>
              var rec := r.value;
              && rec.name == form.name
              && rec.price == form.price.Value()
              && rec.createdBy == user.value
              && (form.discount.Value().None? ==> rec.discount == 0.0)
              && (form.discount.Value().Some? ==> rec.discount == form.discount.Value().value)
              && (form.stockLevel.Blank? ==> rec.stockLevel == Some(5))
              && (form.stockLevel.Typed? ==> rec.stockLevel == form.stockLevel.parsed)
              && rec.stock == ToBase(m, form.stock.Value())
              && rec.barcode == (if form.barcode == "" then freshBarcode else form.barcode)
              && rec.costPrice == (if form.costPrice.Blank? then None else form.costPrice.parsed)
              && rec.category == (if form.category == "" then None else Some(form.category))
              && rec.orgClientId == (if orgClientId == "" then None else Some(orgClientId))
              && rec.measureCategory == Some(m.category)
              && rec.baseUnit == Some(BaseUnit(m.category))
              && rec.quantityPerItem == QuantityPerItem(m)
  {
    if form.name == "" || form.price.Blank? || form.stock.Blank? then Failure(MissingFields)
    else if user.None? then Failure(NotAuthenticated)
    else
      Success(ProductRecord(
        form.name,
        form.price.Value(),
        if form.costPrice.Blank? then None else form.costPrice.Value(),
        form.discount.Value().GetOr(0.0),
        ToBase(m, form.stock.Value()),
        if form.stockLevel.Blank? then Some(5) else form.stockLevel.Value(),
        if form.category == "" then None else Some(form.category),
        if form.barcode == "" then freshBarcode else form.barcode,
        user.value,
        if orgClientId == "" then None else Some(orgClientId),
        Some(m.category),
        Some(BaseUnit(m.category)),
        QuantityPerItem(m)))
  }

  /** `handleEdit`: the form and unit fields restored from a stored product.
      The stock box is reset to one pack; the unit becomes the stored base
      unit; the pack size becomes the stored base units per pack, or 1 when
      that is missing, zero or not a number (`quantity_per_item || 1`). */
  function RestoreForm(rec: ProductRecord): (r: (ProductForm, Measure))
    ensures r.0.stock == Typed(Some(1))
    ensures r.0.name == rec.name
    ensures r.1.category == rec.measureCategory.GetOr(Piece)
  {
    var form := ProductForm(
      rec.name,
      Typed(rec.price),
      if rec.costPrice.Some? then Typed(rec.costPrice) else Blank,
      Typed(Some(rec.discount)),
      Typed(Some(1)),
      Typed(rec.stockLevel),
      rec.category.GetOr(""),
      rec.barcode);
    var unit := match rec.baseUnit
      case Some(Ml) => Ml
      case Some(G) => G
      case _ => Pcs;
    var pack := if rec.quantityPerItem.Some? && rec.quantityPerItem.value != 0.0 then rec.quantityPerItem else Some(1.0);
    (form, Measure(rec.measureCategory.GetOr(Piece), unit, pack))
  }

  /** What `product.stockLevel` and `product.costPrice` read on a product
      row, `None` standing for `undefined`. The table's columns are
      `stock_level` and `cost_price`, so a row written by `handleSubmit` and
      read back with `select('*')` has neither: its view is `SnakeCaseRow`. */
  datatype CamelView = CamelView(stockLevel: Option<int>, costPrice: Option<real>)

  const SnakeCaseRow := CamelView(None, None)

  datatype EditError = PriceNull | StockLevelUndefined

  /** `handleEdit` as written: `product.price.toString()` throws on a row
      whose price is null, and then `product.stockLevel.toString()` throws
      when the row has no `stockLevel`, both before any field is restored
      (though after the row has become the product being edited, so a later
      submit would update it);
      otherwise the cost price box is filled from `product.costPrice`, and
      the remaining fields as in `RestoreForm`. */
  function RestoreFormAsWritten(rec: ProductRecord, camel: CamelView): (r: Result<(ProductForm, Measure), EditError>)
    ensures r.Failure? <==> rec.price.None? || camel.stockLevel.None?
    ensures r == Failure(PriceNull) <==> rec.price.None?
    ensures r.Success? ==>
              && r.value.0.stockLevel == Typed(camel.stockLevel)
              && (r.value.0.costPrice.Blank? <==> camel.costPrice.None?)
              && r.value.1 == RestoreForm(rec).1
  {
    if rec.price.None? then Failure(PriceNull)
    else if camel.stockLevel.None? then Failure(StockLevelUndefined)
    else
      var (form, m) := RestoreForm(rec);
      var cost := if camel.costPrice.Some? then Typed(camel.costPrice) else Blank;
      Success((form.(stockLevel := Typed(camel.stockLevel), costPrice := cost), m))
  }

  /** The edit button fails on every product the form itself saved: on the
      missing `stockLevel`, or earlier on a null price when the price box
      held no number. */
  lemma EditOfSavedRowThrows(form: ProductForm, m: Measure, orgClientId: string, user: Option<string>, freshBarcode: string)
    requires BuildRecord(form, m, orgClientId, user, freshBarcode).Success?
    ensures var rec := BuildRecord(form, m, orgClientId, user, freshBarcode).value;
            && RestoreFormAsWritten(rec, SnakeCaseRow).Failure?
            && (form.price.parsed.Some? ==> RestoreFormAsWritten(rec, SnakeCaseRow) == Failure(StockLevelUndefined))
  {
  }

  /** Round trip of the stored fields: saving an edit without changing the
      form keeps the stored name, price, cost price, discount and alert
      level. */
  lemma EditResubmitKeepsFields(rec: ProductRecord, orgClientId: string, user: string, freshBarcode: string)
    requires rec.name != ""
    ensures var (form, m) := RestoreForm(rec);
            var r := BuildRecord(form, m, orgClientId, Some(user), freshBarcode);
            && r.Success?
            && r.value.name == rec.name
            && r.value.price == rec.price
            && r.value.costPrice == rec.costPrice
            && r.value.discount == rec.discount
            && r.value.stockLevel == rec.stockLevel
  {
  }

  /** Round trip of the text boxes: saving an unchanged edit keeps a stored
      barcode and a stored non-empty category, so no fresh barcode is
      issued and the category is not dropped. */
  lemma EditResubmitKeepsLabels(rec: ProductRecord, orgClientId: string, user: string, freshBarcode: string)
    requires rec.name != ""
    requires rec.barcode != "" && rec.category != Some("")
    ensures var (form, m) := RestoreForm(rec);
            var r := BuildRecord(form, m, orgClientId, Some(user), freshBarcode);
            && form.barcode == rec.barcode
            && form.category == rec.category.GetOr("")
            && r.Success?
            && r.value.barcode == rec.barcode
            && r.value.category == rec.category
  {
  }

  /** Round trip: editing a product the form stored gives back its base unit
      and base units per pack, provided the pack size was a non-zero number. */
  lemma EditRestoresUnits(form: ProductForm, m: Measure, orgClientId: string, user: Option<string>, freshBarcode: string)
    requires BuildRecord(form, m, orgClientId, user, freshBarcode).Success?
    requires QuantityPerItem(m).Some? && QuantityPerItem(m).value != 0.0
    ensures var rec := BuildRecord(form, m, orgClientId, user, freshBarcode).value;
            var m' := RestoreForm(rec).1;
            && m'.category == m.category
            && Some(BaseUnit(m'.category)) == rec.baseUnit
            && QuantityPerItem(m') == rec.quantityPerItem
  {
  }

  /** The round trip needs a non-zero pack size: a liquid or solid product
      stored with zero base units per pack comes back with one. */
  lemma ZeroPackComesBackAsOne(rec: ProductRecord)
    requires rec.measureCategory == Some(Liquid) || rec.measureCategory == Some(Solid)
    requires rec.quantityPerItem == Some(0.0)
    ensures QuantityPerItem(RestoreForm(rec).1) == Some(1.0) != rec.quantityPerItem
  {
  }

  /** Saving an edit without touching the stock box overwrites the stored
      stock with exactly one pack. */
  lemma EditResubmitStoresOnePack(rec: ProductRecord, orgClientId: string, user: string, freshBarcode: string)
    requires rec.name != ""
    requires rec.quantityPerItem.Some? && rec.quantityPerItem.value != 0.0
    requires rec.measureCategory.Some? && rec.baseUnit == Some(BaseUnit(rec.measureCategory.value))
    ensures var (form, m) := RestoreForm(rec);
            var r := BuildRecord(form, m, orgClientId, Some(user), freshBarcode);
            r.Success? &&
            r.value.stock == (if rec.measureCategory == Some(Piece) then Some(1.0) else rec.quantityPerItem)
  {
  }

  /** The search box: name or category containing the term ignoring case, or
      a barcode containing it. */
  predicate MatchesSearch(p: Product, term: string)
  {
    || IncludesIgnoringCase(p.name, term)
    || (p.barcode.Some? && Includes(p.barcode.value, term))
    || (p.category.Some? && IncludesIgnoringCase(p.category.value, term))
  }

  function SearchFilter(term: string): Product -> bool
  {
    (p: Product) => MatchesSearch(p, term)
  }

  /** `filteredProducts`: the matching products, in list order; the empty
      term keeps them all. */
  function FilteredProducts(products: seq<Product>, term: string): (r: seq<Product>)
    ensures forall i :: 0 <= i < |r| ==> r[i] in products && MatchesSearch(r[i], term)
    ensures forall i :: 0 <= i < |products| && MatchesSearch(products[i], term) ==> products[i] in r
    ensures term == "" ==> r == products
  {
    if term == "" then
      forall i | 0 <= i < |products|
        ensures SearchFilter(term)(products[i])
      {
        EmptyTermMatches(products[i].name);
      }
      FilterAll(products, SearchFilter(term));
      Filter(products, SearchFilter(term))
    else Filter(products, SearchFilter(term))
  }

  /** The search keeps list order: the result for a list split in two is
      the two results joined. */
  lemma FilteredProductsAppend(a: seq<Product>, b: seq<Product>, term: string)
    ensures FilteredProducts(a + b, term) == FilteredProducts(a, term) + FilteredProducts(b, term)
  {
    FilterAppend(a, b, SearchFilter(term));
  }

  function OtherThan(id: string): Product -> bool
  {
    (p: Product) => p.id != id
  }

  /** `handleDelete`: after the database deleted product `id`, the list
      drops it; after a failed delete the list stays. */
  function DeleteProduct(products: seq<Product>, id: string, deleted: bool): (r: seq<Product>)
    ensures !deleted ==> r == products
    ensures deleted ==> forall i :: 0 <= i < |r| ==> r[i] in products && r[i].id != id
    ensures deleted ==> forall i :: 0 <= i < |products| && products[i].id != id ==> products[i] in r
  {
    if deleted then Filter(products, OtherThan(id)) else products
  }

  /** Deleting the one product with id `id` removes exactly it and keeps the
      others in their order. */
  lemma DeleteRemovesExactlyOne(before: seq<Product>, x: Product, after: seq<Product>, id: string)
    requires x.id == id
    requires forall i :: 0 <= i < |before| ==> before[i].id != id
    requires forall i :: 0 <= i < |after| ==> after[i].id != id
    ensures DeleteProduct(before + [x] + after, id, true) == before + after
  {
    FilterDropsOne(before, x, after, OtherThan(id));
  }
}

=== FILE: onboard.dfy ===
/** Client onboarding (src/pages/AdminOnboard.tsx): only the platform
    administrator may use the page; its form is checked in a fixed order,
    then a client row is inserted and, only if that succeeds, the new user
    is signed up. The insert and the sign-up are the caller's replies. */
module Onboard {
  import opened Wrappers
  import opened Text

  const PlatformEmail := "ravi.abhinavyadav@gmail.com"

  /** `user?.email?.toLowerCase() === PLATFORM_EMAIL`; no user, or a user
      without an email, is not the administrator. */
  predicate IsPlatformAdmin(email: Option<string>)
  {
    email.Some? && ToLower(email.value) == PlatformEmail
  }

  datatype ClientType = Org | Outlet

  /** The form; `clientType` is `None` while nothing is selected. */
  datatype OnboardForm = OnboardForm(
    clientType: Option<ClientType>,
    clientName: string,
    clientLocation: string,
    parentOrgId: string,
    fullName: string,
    email: string,
    password: string,
    confirmPassword: string)

  datatype OnboardError =
    | NotAuthorized
    | MissingClientData
    | MissingParentOrg
    | MissingUserFields
    | PasswordMismatch
    | Remote(message: string)

  predicate UserFieldsFilled(f: OnboardForm)
  {
    f.fullName != "" && f.email != "" && f.password != "" && f.confirmPassword != ""
  }

  /** `handleSubmit`'s checks, the first failing one reported: client type
      and name; a parent org for an outlet; the four user fields; matching
      passwords. */
  function Validate(f: OnboardForm): (r: Option<OnboardError>)
    ensures r == Some(MissingClientData) <==> f.clientType.None? || f.clientName == ""
    ensures r == Some(MissingParentOrg) <==>
              f.clientType == Some(Outlet) && f.clientName != "" && f.parentOrgId == ""
    ensures r == Some(MissingUserFields) <==>
              f.clientType.Some? && f.clientName != "" && !(f.clientType == Some(Outlet) && f.parentOrgId == "")
              && !UserFieldsFilled(f)
    ensures r == Some(PasswordMismatch) <==>
              f.clientType.Some? && f.clientName != "" && !(f.clientType == Some(Outlet) && f.parentOrgId == "")
              && UserFieldsFilled(f) && f.password != f.confirmPassword
    ensures r.None? || r.value in {MissingClientData, MissingParentOrg, MissingUserFields, PasswordMismatch}
  {
    if f.clientType.None? || f.clientName == "" then Some(MissingClientData)
    else if f.clientType == Some(Outlet) && f.parentOrgId == "" then Some(MissingParentOrg)
    else if !UserFieldsFilled(f) then Some(MissingUserFields)
    else if f.password != f.confirmPassword then Some(PasswordMismatch)
    else None
  }

  /** The `clients` row to insert. */
  datatype ClientPayload = ClientPayload(
    clientType: ClientType,
    name: string,
    location: Option<string>,
    parentClientId: Option<string>,
    createdBy: string)

  /** `clientPayload`: the parent is recorded only for an outlet, an empty
      location is stored as null, and the creator is the signed-in user. */
  function BuildClientPayload(f: OnboardForm, t: ClientType, userId: string): (p: ClientPayload)
    ensures p.clientType == t && p.name == f.clientName && p.createdBy == userId
    ensures p.parentClientId.Some? <==> t == Outlet
    ensures t == Outlet ==> p.parentClientId == Some(f.parentOrgId)
    ensures p.location.None? <==> f.clientLocation == ""
    ensures p.location.Some? ==> p.location.value == f.clientLocation
  {
    ClientPayload(
      t,
      f.clientName,
      if f.clientLocation == "" then None else Some(f.clientLocation),
      if t == Outlet then Some(f.parentOrgId) else None,
      userId)
  }

  /** The requests the submit sends, in order. */
  datatype Effect =
    | InsertClient(payload: ClientPayload)
    | SignUp(email: string, password: string, fullName: string)

  /** What a submit did: the requests sent and the result, the new client's
      id on success. */
  datatype Submission = Submission(effects: seq<Effect>, result: Result<string, OnboardError>)

  /** `handleSubmit` for the user with id `userId` and email `userEmail`:
      nothing is sent unless the user is the administrator and the form is
      valid; the client insert comes first and the sign-up is sent only
      after it succeeded. `insertReply` is the new client's id or the
      insert's error message; `signUpError` is the sign-up's. */
  function Submit(userId: string, userEmail: Option<string>, f: OnboardForm,
                  insertReply: Result<string, string>, signUpError: Option<string>): (s: Submission)
    ensures !IsPlatformAdmin(userEmail) ==> s == Submission([], Failure(NotAuthorized))
    ensures IsPlatformAdmin(userEmail) && Validate(f).Some? ==> s == Submission([], Failure(Validate(f).value))
    ensures |s.effects| > 0 ==>
              && IsPlatformAdmin(userEmail) && Validate(f).None?
              && s.effects[0] == InsertClient(BuildClientPayload(f, f.clientType.value, userId))
    ensures |s.effects| <= 2
    ensures |s.effects| == 2 ==> insertReply.Success? && s.effects[1] == SignUp(f.email, f.password, f.fullName)
    ensures s.result.Success? <==>
              IsPlatformAdmin(userEmail) && Validate(f).None? && insertReply.Success? && signUpError.None?
    ensures s.result.Success? ==> s.result.value == insertReply.value && |s.effects| == 2
    ensures IsPlatformAdmin(userEmail) && Validate(f).None? ==>
              && (|s.effects| == 2 <==> insertReply.Success?)
              && (insertReply.Failure? ==> s.result == Failure(Remote(insertReply.error)))
              && (insertReply.Success? && signUpError.Some? ==> s.result == Failure(Remote(signUpError.value)))
  {
    if !IsPlatformAdmin(userEmail) then Submission([], Failure(NotAuthorized))
    else
      var check := Validate(f);
      if check.Some? then Submission([], Failure(check.value))
      else
        var insert := InsertClient(BuildClientPayload(f, f.clientType.value, userId));
        match insertReply
        case Failure(message) => Submission([insert], Failure(Remote(message)))
        case Success(clientId) =>
          var effects := [insert, SignUp(f.email, f.password, f.fullName)];
          if signUpError.Some? then Submission(effects, Failure(Remote(signUpError.value)))
          else Submission(effects, Success(clientId))
  }

  /** The administrator check ignores the case of the email. */
  lemma AdminCheckIgnoresCase(email: string)
    ensures IsPlatformAdmin(Some(email)) <==> IsPlatformAdmin(Some(ToLower(email)))
  {
    ToLowerIdempotent(email);
  }

  /** A signed-out visitor is never the administrator. */
  lemma NoUserNoAccess(f: OnboardForm, userId: string, insertReply: Result<string, string>, signUpError: Option<string>)
    ensures Submit(userId, None, f, insertReply, signUpError).result == Failure(NotAuthorized)
  {
  }

  /** An organisation never needs a parent: with the other fields in order
      the form passes whatever the parent box holds. */
  lemma OrgNeedsNoParent(f: OnboardForm, parent: string)
    requires f.clientType == Some(Org) && f.clientName != ""
    requires UserFieldsFilled(f) && f.password == f.confirmPassword
    ensures Validate(f.(parentOrgId := parent)).None?
  {
  }

  /** A mismatch is only reported once every earlier check passed, so a
      form with an empty field is never told its passwords differ. */
  lemma MismatchReportedLast(f: OnboardForm)
    requires Validate(f) == Some(PasswordMismatch)
    ensures f.clientType.Some? && f.clientName != "" && UserFieldsFilled(f)
    ensures f.clientType == Some(Outlet) ==> f.parentOrgId != ""
  {
  }

  /** A form that passes every check sends the insert, whatever the
      replies. */
  lemma ValidFormIsSent(userId: string, userEmail: Option<string>, f: OnboardForm,
                        insertReply: Result<string, string>, signUpError: Option<string>)
    requires IsPlatformAdmin(userEmail) && Validate(f).None?
    ensures var s := Submit(userId, userEmail, f, insertReply, signUpError);
            |s.effects| >= 1 && s.effects[0].InsertClient?
            && (s.effects[0].payload.parentClientId.Some? <==> f.clientType == Some(Outlet))
  {
  }

  /** A failed insert stops the submit before the sign-up. */
  lemma FailedInsertSendsNoSignUp(userId: string, userEmail: Option<string>, f: OnboardForm,
                                  message: string, signUpError: Option<string>)
    ensures var s := Submit(userId, userEmail, f, Failure(message), signUpError);
            forall i :: 0 <= i < |s.effects| ==> !s.effects[i].SignUp?
  {
  }
}

=== FILE: orderhistory.dfy ===
/** The order history page (src/pages/Orders.tsx): the search box, the
    payment-method filter and the newest-first ordering of the list. */
module OrderHistory {
  import opened Wrappers
  import opened Seqs
  import opened Sorting
  import opened Types
  import opened Text

  /** The payment select: "all", or one method. */
  datatype PaymentFilter = AllPayments | OnlyMethod(choice: PaymentMethod)

  predicate MatchesPayment(o: Order, f: PaymentFilter)
  {
    f.AllPayments? || o.paymentMethod == f.choice
  }

  /** The order id contains the term, or the customer name contains it
      ignoring case, or the mobile number contains it; a missing name or
      mobile matches nothing. */
  predicate MatchesSearch(o: Order, term: string)
  {
    || Includes(o.id, term)
    || (o.customerName.Some? && IncludesIgnoringCase(o.customerName.value, term))
    || (o.customerMobile.Some? && Includes(o.customerMobile.value, term))
  }

  predicate Shown(o: Order, term: string, f: PaymentFilter)
  {
    MatchesSearch(o, term) && MatchesPayment(o, f)
  }

  function ShownBy(term: string, f: PaymentFilter): Order -> bool
  {
    (o: Order) => Shown(o, term, f)
  }

  /** `filteredOrders`: the orders passing both the search and the payment
      filter, in stored order. */
  function FilteredOrders(orders: seq<Order>, term: string, f: PaymentFilter): (r: seq<Order>)
    ensures |r| <= |orders|
    ensures forall i :: 0 <= i < |r| ==> r[i] in orders && MatchesSearch(r[i], term) && MatchesPayment(r[i], f)
    ensures forall i :: 0 <= i < |orders| && MatchesSearch(orders[i], term) && MatchesPayment(orders[i], f) ==> orders[i] in r
    ensures multiset(r) <= multiset(orders)
  {
    FilterSubMultiset(orders, ShownBy(term, f));
    Filter(orders, ShownBy(term, f))
  }

  /** The filters keep stored order: the result for a list split in two is
      the two results joined. */
  lemma FilteredOrdersAppend(a: seq<Order>, b: seq<Order>, term: string, f: PaymentFilter)
    ensures FilteredOrders(a + b, term, f) == FilteredOrders(a, term, f) + FilteredOrders(b, term, f)
  {
    FilterAppend(a, b, ShownBy(term, f));
  }

  /** The sort key of `(a, b) => b.createdAt - a.createdAt`: ascending in
      it is newest first. */
  function NewestFirst(o: Order): int
  {
    -o.createdAt
  }

  /** `sortedOrders`: the filtered orders, newest first. */
  function SortedOrders(filtered: seq<Order>): (r: seq<Order>)
    ensures multiset(r) == multiset(filtered)
    ensures forall i, j :: 0 <= i < j < |r| ==> r[i].createdAt >= r[j].createdAt
  {
    var sorted := SortBy(filtered, NewestFirst);
    assert forall i, j :: 0 <= i < j < |sorted| ==> NewestFirst(sorted[i]) <= NewestFirst(sorted[j]);
    sorted
  }

  /** What the page lists. */
  function Listed(orders: seq<Order>, term: string, f: PaymentFilter): seq<Order>
  {
    SortedOrders(FilteredOrders(orders, term, f))
  }

  /** The "all" choice lets every method through; a specific choice lets
      through exactly the orders paid that way. */
  lemma PaymentFilterChoices(o: Order, m: PaymentMethod)
    ensures MatchesPayment(o, AllPayments)
    ensures MatchesPayment(o, OnlyMethod(m)) <==> o.paymentMethod == m
  {
  }

  /** An order with neither a name nor a mobile number is found by its id
      and by nothing else. */
  lemma AnonymousOrderFoundById(o: Order, term: string)
    requires o.customerName.None? && o.customerMobile.None?
    ensures MatchesSearch(o, term) <==> Includes(o.id, term)
  {
  }

  /** The empty search with "all" lists every stored order. */
  lemma NoFilterKeepsAll(orders: seq<Order>)
    ensures FilteredOrders(orders, "", AllPayments) == orders
    ensures multiset(Listed(orders, "", AllPayments)) == multiset(orders)
  {
    forall i | 0 <= i < |orders|
      ensures ShownBy("", AllPayments)(orders[i])
    {
      EmptyTermMatches(orders[i].id);
    }
    FilterAll(orders, ShownBy("", AllPayments));
  }

  /** A listed order is one that passes both filters, and every stored order
      that passes both is listed. */
  lemma ListedExactlyShown(orders: seq<Order>, term: string, f: PaymentFilter, o: Order)
    ensures o in Listed(orders, term, f) <==> o in orders && Shown(o, term, f)
  {
    var filtered := FilteredOrders(orders, term, f);
    var listed := Listed(orders, term, f);
    assert o in listed <==> o in multiset(listed);
    assert o in filtered <==> o in multiset(filtered);
    if o in orders && Shown(o, term, f) {
      var i :| 0 <= i < |orders| && orders[i] == o;
      assert o in filtered;
    }
  }

  /** Orders placed at the same instant (key `k`, time `-k`) keep their
      stored order. */
  lemma SameInstantKeepsStoredOrder(filtered: seq<Order>, k: int)
    ensures Filter(SortedOrders(filtered), KeyIs(NewestFirst, k)) == Filter(filtered, KeyIs(NewestFirst, k))
  {
    SortIsStable(filtered, NewestFirst, k);
  }

  /** Shown orders placed at instant `-k`. */
  function ShownAt(term: string, f: PaymentFilter, k: int): Order -> bool
  {
    (o: Order) => Shown(o, term, f) && NewestFirst(o) == k
  }

  /** The same on the page's list: the listed orders placed at one instant
      are exactly the stored orders of that instant passing both filters,
      in stored order. */
  lemma ListedSameInstantKeepsStoredOrder(orders: seq<Order>, term: string, f: PaymentFilter, k: int)
    ensures Filter(Listed(orders, term, f), KeyIs(NewestFirst, k)) == Filter(orders, ShownAt(term, f, k))
  {
    var filtered := FilteredOrders(orders, term, f);
    SameInstantKeepsStoredOrder(filtered, k);
    FilterFilter(orders, ShownBy(term, f), KeyIs(NewestFirst, k), ShownAt(term, f, k));
  }
}

=== FILE: profile.dfy ===
/** The store profile page (src/pages/Profile.tsx): reading the owner's
    `store_profile` row into the form, validating and saving the form as an
    upsert keyed by owner, and cancelling an edit. The table is a map from
    owner id to row; the database calls are left to the caller. */
module Profile {
  import opened Wrappers
  import opened Types

  /** A `store_profile` row as read back; every column may be null. */
  datatype ProfileRow = ProfileRow(
    title: Option<string>,
    phone: Option<string>,
    location: Option<string>,
    gstNumber: Option<string>,
    profileImageUrl: Option<string>)

  /** The row `handleSave` upserts. */
  datatype Payload = Payload(
    ownerId: string,
    title: string,
    phone: string,
    location: string,
    gstNumber: string,
    profileImageUrl: string)

  /** The `store_profile` table, one row per owner. */
  type Table = map<string, ProfileRow>

  const DefaultName := "My Store"

  /** `x || ''` on a nullable text column. */
  function OrEmpty(x: Option<string>): string
  {
    x.GetOr("")
  }

  /** `loadProfile`'s mapping: the title, or "My Store" when it is null or
      empty; the other columns, or the empty string; the email is the one
      already in the form, since the table does not hold it. */
  function FromRow(row: ProfileRow, email: string): (p: StoreProfile)
    ensures p.email == email
    ensures p.name != ""
    ensures row.title.Some? && row.title.value != "" ==> p.name == row.title.value
    ensures row.title.None? || row.title.value == "" ==> p.name == DefaultName
    ensures row.phone.Some? ==> p.phone == row.phone.value
    ensures row.location.Some? ==> p.address == row.location.value
    ensures row.gstNumber.Some? ==> p.gstNumber == row.gstNumber.value
    ensures row.profileImageUrl.Some? ==> p.logo == row.profileImageUrl.value
    ensures row.phone.None? ==> p.phone == ""
    ensures row.location.None? ==> p.address == ""
    ensures row.gstNumber.None? ==> p.gstNumber == ""
    ensures row.profileImageUrl.None? ==> p.logo == ""
  {
    StoreProfile(
      if row.title.None? || row.title.value == "" then DefaultName else row.title.value,
      email,
      OrEmpty(row.phone),
      OrEmpty(row.location),
      OrEmpty(row.gstNumber),
      OrEmpty(row.profileImageUrl))
  }

  /** `handleSave`'s check: a store name and an email are required. */
  predicate Savable(form: StoreProfile)
  {
    form.name != "" && form.email != ""
  }

  /** The upsert payload: the form's fields under the table's column names,
      keyed by the signed-in owner; the email is not stored. */
  function SavePayload(form: StoreProfile, ownerId: string): (p: Payload)
    ensures p.ownerId == ownerId
    ensures p.title == form.name && p.phone == form.phone && p.location == form.address
    ensures p.gstNumber == form.gstNumber && p.profileImageUrl == form.logo
  {
    Payload(ownerId, form.name, form.phone, form.address, form.gstNumber, form.logo)
  }

  /** The email is not persisted: forms differing only in it save the same
      row. */
  lemma EmailNotStored(form: StoreProfile, ownerId: string, email: string)
    ensures SavePayload(form.(email := email), ownerId) == SavePayload(form, ownerId)
  {
  }

  /** The row a payload leaves in the table. */
  function Stored(p: Payload): ProfileRow
  {
    ProfileRow(Some(p.title), Some(p.phone), Some(p.location), Some(p.gstNumber), Some(p.profileImageUrl))
  }

  /** `upsert(payload, { onConflict: 'owner_id' })`: the owner's row is
      inserted or replaced; every other owner's row stays. */
  function Upsert(table: Table, p: Payload): (t: Table)
    ensures t.Keys == table.Keys + {p.ownerId}
    ensures p.ownerId in t && t[p.ownerId] == Stored(p)
    ensures forall o :: o in table && o != p.ownerId ==> o in t && t[o] == table[o]
  {
    table[p.ownerId := Stored(p)]
  }

  /** `select('*').eq('owner_id', id).maybeSingle()` followed by the
      mapping: no row gives nothing. */
  function Load(table: Table, ownerId: string, email: string): (r: Option<StoreProfile>)
    ensures r.Some? <==> ownerId in table
    ensures r.Some? ==> r.value.email == email
  {
    if ownerId in table then Some(FromRow(table[ownerId], email)) else None
  }

  /** Upserting the same payload twice is upserting it once. */
  lemma UpsertIdempotent(table: Table, p: Payload)
    ensures Upsert(Upsert(table, p), p) == Upsert(table, p)
  {
  }

  /** The latest save wins: a second save by the same owner replaces the
      first, leaving a single row for that owner. */
  lemma LatestSaveWins(table: Table, p: Payload, q: Payload)
    requires p.ownerId == q.ownerId
    ensures Upsert(Upsert(table, p), q) == Upsert(table, q)
    ensures |Upsert(Upsert(table, p), q).Keys| == |Upsert(table, p).Keys|
  {
  }

  /** Saves by different owners do not interfere. */
  lemma OwnersIndependent(table: Table, p: Payload, q: Payload)
    requires p.ownerId != q.ownerId
    ensures Upsert(Upsert(table, p), q) == Upsert(Upsert(table, q), p)
  {
  }

  /** Round trip: a profile that passes the save check, once saved, loads
      back as itself; the email comes from the form doing the loading. */
  lemma SaveThenLoad(table: Table, form: StoreProfile, ownerId: string, email: string)
    requires Savable(form)
    ensures Load(Upsert(table, SavePayload(form, ownerId)), ownerId, email) == Some(form.(email := email))
  {
  }

  /** Only the name needs the save check for the round trip: an empty name
      is read back as the default. */
  lemma EmptyNameLoadsAsDefault(table: Table, form: StoreProfile, ownerId: string)
    requires form.name == ""
    ensures Load(Upsert(table, SavePayload(form, ownerId)), ownerId, form.email).value.name == DefaultName
  {
  }

  /** The page's state: the last loaded or saved profile (`storeProfile`),
      the form, and whether the form is open for editing. The signed-in
      user's email seeds the form. */
  datatype Page = Page(userEmail: string, saved: Option<StoreProfile>, form: StoreProfile, editing: bool)

  /** The form before anything is loaded. */
  function InitialForm(userEmail: string): (p: StoreProfile)
    ensures p.name == DefaultName && p.email == userEmail
    ensures p.phone == p.address == p.gstNumber == p.logo == ""
  {
    StoreProfile(DefaultName, userEmail, "", "", "", "")
  }

  function Open(userEmail: string): (s: Page)
    ensures s.saved.None? && !s.editing && s.form == InitialForm(userEmail)
  {
    Page(userEmail, None, InitialForm(userEmail), false)
  }

  /** The reply to the profile query: an error, no row, or the row. */
  datatype LoadReply = LoadFailed | NoRow | Row(row: ProfileRow)

  /** `loadProfile`'s effect on the page: a row replaces both the saved
      profile and the form; an error or a missing row changes nothing. */
  function Loaded(s: Page, reply: LoadReply): (r: Page)
    ensures !reply.Row? ==> r == s
    ensures reply.Row? ==> r.saved == Some(r.form) && r.form == FromRow(reply.row, s.form.email)
    ensures r.userEmail == s.userEmail && r.editing == s.editing
  {
    if reply.Row? then
      var sp := FromRow(reply.row, s.form.email);
      s.(saved := Some(sp), form := sp)
    else s
  }

  datatype SaveOutcome = Saved | MissingNameOrEmail | NotSignedIn | UpsertFailed(message: string)

  /** `handleSave`: the check, then the upsert for the signed-in owner; on
      success the form becomes the saved profile and editing ends. The
      upsert's error, if any, is a parameter. */
  function Save(s: Page, table: Table, ownerId: Option<string>, upsertError: Option<string>)
    : (r: (Page, Table, SaveOutcome))
    ensures r.2 == MissingNameOrEmail <==> !Savable(s.form)
    ensures r.2 == Saved <==> Savable(s.form) && ownerId.Some? && upsertError.None?
    ensures r.2 != Saved ==> r.0 == s && r.1 == table
    ensures r.2 == Saved ==>
              && r.0 == s.(saved := Some(s.form), editing := false)
              && r.1 == Upsert(table, SavePayload(s.form, ownerId.value))
  {
    if !Savable(s.form) then (s, table, MissingNameOrEmail)
    else if ownerId.None? then (s, table, NotSignedIn)
    else if upsertError.Some? then (s, table, UpsertFailed(upsertError.value))
    else (s.(saved := Some(s.form), editing := false), Upsert(table, SavePayload(s.form, ownerId.value)), Saved)
  }

  /** Typing into the form while editing. */
  function Edit(s: Page, form: StoreProfile): (r: Page)
    ensures r.form == form && r.saved == s.saved && r.editing
  {
    s.(form := form, editing := true)
  }

  /** `handleCancel` as written: the form becomes `storeProfile`, which is
      null (here `None`) until a profile has been loaded or saved. */
  function CancelAsWritten(s: Page): (r: (Option<StoreProfile>, bool))
    ensures r.0 == s.saved && !r.1
  {
    (s.saved, false)
  }

  /** A first-time user who opens the editor and cancels before any save is
      left with no form at all. */
  lemma CancelBeforeFirstSaveDropsForm(userEmail: string, form: StoreProfile)
    ensures CancelAsWritten(Edit(Open(userEmail), form)).0.None?
  {
  }

  /** `handleCancel` as intended: back to the last loaded or saved profile,
      or to the initial form when there is none. */
  function Cancel(s: Page): (r: Page)
    ensures !r.editing && r.saved == s.saved && r.userEmail == s.userEmail
    ensures s.saved.Some? ==> r.form == s.saved.value
    ensures s.saved.None? ==> r.form == InitialForm(s.userEmail)
  {
    s.(form := s.saved.GetOr(InitialForm(s.userEmail)), editing := false)
  }

  /** Cancelling discards every edit made since the last load or save, and
      agrees with the code as written whenever a profile was saved. */
  lemma CancelDiscardsEdits(s: Page, form: StoreProfile)
    ensures Cancel(Edit(s, form)) == Cancel(s)
    ensures s.saved.Some? ==> CancelAsWritten(s).0 == Some(Cancel(s).form)
  {
  }

  /** After a successful save, cancelling keeps what was saved. */
  lemma CancelAfterSaveKeepsSaved(s: Page, table: Table, ownerId: string)
    requires Savable(s.form)
    ensures var (saved, _, outcome) := Save(s, table, Some(ownerId), None);
            outcome == Saved && Cancel(saved).form == s.form
  {
  }

  /** Reloading the page after a save shows what was saved. */
  lemma SavedProfileSurvivesReload(s: Page, table: Table, ownerId: string)
    requires Savable(s.form)
    ensures var t := Save(s, table, Some(ownerId), None).1;
            var reopened := Loaded(Open(s.form.email), Row(t[ownerId]));
            reopened.form == s.form && reopened.saved == Some(s.form)
  {
    var t := Save(s, table, Some(ownerId), None).1;
    assert t == Upsert(table, SavePayload(s.form, ownerId));
    SaveThenLoad(table, s.form, ownerId, s.form.email);
  }
}

=== FILE: seqs.dfy ===
/** Sequence helpers mirroring the array methods the pages use:
    `filter`, `find`, `reduce` with `+` and `slice(0, n)`. */
module Seqs {
  import opened Wrappers

  /** `Array.prototype.filter`: the elements satisfying `p`, in order. */
  function Filter<T>(s: seq<T>, p: T -> bool): (r: seq<T>)
    ensures |r| <= |s|
    ensures forall i :: 0 <= i < |r| ==> r[i] in s && p(r[i])
    ensures forall i :: 0 <= i < |s| && p(s[i]) ==> s[i] in r
  {
    if |s| == 0 then []
    else if p(s[0]) then [s[0]] + Filter(s[1..], p)
    else Filter(s[1..], p)
  }

  /** Filtering distributes over concatenation, so appending elements never
      disturbs the elements already selected. */
  lemma {:induction false} FilterAppend<T>(a: seq<T>, b: seq<T>, p: T -> bool)
    ensures Filter(a + b, p) == Filter(a, p) + Filter(b, p)
  {
    if |a| == 0 {
      assert a + b == b;
    } else {
      assert (a + b)[1..] == a[1..] + b;
      FilterAppend(a[1..], b, p);
    }
  }

  /** A filter that every element passes keeps the sequence as it is. */
  lemma {:induction false} FilterAll<T>(s: seq<T>, p: T -> bool)
    requires forall i :: 0 <= i < |s| ==> p(s[i])
    ensures Filter(s, p) == s
  {
    if |s| > 0 {
      FilterAll(s[1..], p);
    }
  }

  /** `FilterAll` as an implication, for callers that do not know which case
      holds. */
  lemma FilterAllKept<T>(s: seq<T>, p: T -> bool)
    ensures (forall i :: 0 <= i < |s| ==> p(s[i])) ==> Filter(s, p) == s
  {
    if forall i :: 0 <= i < |s| ==> p(s[i]) {
      FilterAll(s, p);
    }
  }

  /** A filter that rejects just `x` between elements it keeps drops `x` and
      keeps the others in their order. */
  lemma FilterDropsOne<T>(before: seq<T>, x: T, after: seq<T>, p: T -> bool)
    requires forall i :: 0 <= i < |before| ==> p(before[i])
    requires !p(x)
    requires forall i :: 0 <= i < |after| ==> p(after[i])
    ensures Filter(before + [x] + after, p) == before + after
  {
    var front := before + [x];
    FilterAppend(front, after, p);
    FilterAppend(before, [x], p);
    FilterAll(before, p);
    FilterAll(after, p);
    assert Filter([x], p) == [];
    assert Filter(front, p) == before;
  }

  /** Filtering twice is filtering once by both tests. */
  lemma {:induction false} FilterFilter<T>(s: seq<T>, p: T -> bool, q: T -> bool, pq: T -> bool)
    requires forall x :: pq(x) == (p(x) && q(x))
    ensures Filter(Filter(s, p), q) == Filter(s, pq)
  {
    if |s| > 0 {
      FilterFilter(s[1..], p, q, pq);
      if p(s[0]) {
        assert ([s[0]] + Filter(s[1..], p))[1..] == Filter(s[1..], p);
      }
    }
  }

  /** A filter that no element passes keeps nothing. */
  lemma {:induction false} FilterNone<T>(s: seq<T>, p: T -> bool)
    requires forall i :: 0 <= i < |s| ==> !p(s[i])
    ensures Filter(s, p) == []
  {
    if |s| > 0 {
      FilterNone(s[1..], p);
    }
  }

  /** Filtering never adds occurrences: the result's multiset is contained
      in the input's. */
  lemma {:induction false} FilterSubMultiset<T>(s: seq<T>, p: T -> bool)
    ensures multiset(Filter(s, p)) <= multiset(s)
  {
    if |s| > 0 {
      FilterSubMultiset(s[1..], p);
      assert s == [s[0]] + s[1..];
    }
  }

  /** Every earlier element is related to every later one by `rel`. */
  predicate Pairwise<T>(s: seq<T>, rel: (T, T) -> bool)
  {
    forall i, j :: 0 <= i < j < |s| ==> rel(s[i], s[j])
  }

  /** Filtering keeps a pairwise property, since it keeps relative order. */
  lemma {:induction false} FilterPairwise<T>(s: seq<T>, p: T -> bool, rel: (T, T) -> bool)
    requires Pairwise(s, rel)
    ensures Pairwise(Filter(s, p), rel)
  {
    if |s| > 0 {
      assert Pairwise(s[1..], rel);
      FilterPairwise(s[1..], p, rel);
      var tail := Filter(s[1..], p);
      forall j | 0 <= j < |tail|
        ensures rel(s[0], tail[j])
      {
        var k :| 0 <= k < |s[1..]| && s[1..][k] == tail[j];
        assert s[k + 1] == tail[j];
      }
    }
  }

  /** `Array.prototype.findIndex`: the first index whose element satisfies `p`. */
  function FirstIndex<T>(s: seq<T>, p: T -> bool): (r: Option<nat>)
    ensures r.Some? ==> r.value < |s| && p(s[r.value])
    ensures r.Some? ==> forall j :: 0 <= j < r.value ==> !p(s[j])
    ensures r.None? <==> forall j :: 0 <= j < |s| ==> !p(s[j])
  {
    if |s| == 0 then None
    else if p(s[0]) then Some(0)
    else match FirstIndex(s[1..], p)
      case None => None
      case Some(k) => Some(k + 1)
  }

  /** `reduce((sum, x) => sum + f(x), 0)` over reals. */
  function Sum<T>(s: seq<T>, f: T -> real): real
  {
    if |s| == 0 then 0.0 else f(s[0]) + Sum(s[1..], f)
  }

  /** `reduce((sum, x) => sum + f(x), 0)` over integers. */
  function SumInt<T>(s: seq<T>, f: T -> int): int
  {
    if |s| == 0 then 0 else f(s[0]) + SumInt(s[1..], f)
  }

  lemma {:induction false} SumAppend<T>(a: seq<T>, b: seq<T>, f: T -> real)
    ensures Sum(a + b, f) == Sum(a, f) + Sum(b, f)
  {
    if |a| > 0 {
      assert (a + b)[1..] == a[1..] + b;
      SumAppend(a[1..], b, f);
    } else {
      assert a + b == b;
    }
  }

  lemma {:induction false} SumIntAppend<T>(a: seq<T>, b: seq<T>, f: T -> int)
    ensures SumInt(a + b, f) == SumInt(a, f) + SumInt(b, f)
  {
    if |a| > 0 {
      assert (a + b)[1..] == a[1..] + b;
      SumIntAppend(a[1..], b, f);
    } else {
      assert a + b == b;
    }
  }

  /** Dropping the element at index `j` takes exactly its term out of the sum. */
  lemma {:induction false} SumRemove<T>(s: seq<T>, j: nat, f: T -> real)
    requires j < |s|
    ensures Sum(s, f) == f(s[j]) + Sum(s[..j] + s[j + 1..], f)
  {
    var left, right := s[..j], s[j + 1..];
    var mid := [s[j]] + right;
    assert s == left + mid;
    SumAppend(left, mid, f);
    assert mid[1..] == right;
    assert Sum(mid, f) == f(s[j]) + Sum(right, f);
    SumAppend(left, right, f);
  }

  /** Dropping the element at index `j` takes one copy of it out of the
      multiset. */
  lemma RemoveAtMultiset<T>(s: seq<T>, j: nat)
    requires j < |s|
    ensures multiset(s[..j] + s[j + 1..]) == multiset(s) - multiset{s[j]}
  {
    var left, right := s[..j], s[j + 1..];
    assert s == left + [s[j]] + right;
  }

  /** Matching the head of `a` with an equal element of `b` leaves tails
      that are still permutations of each other. */
  lemma PermutationTails<T>(a: seq<T>, b: seq<T>, j: nat)
    requires multiset(a) == multiset(b)
    requires 0 < |a| && j < |b| && b[j] == a[0]
    ensures multiset(a[1..]) == multiset(b[..j] + b[j + 1..])
  {
    RemoveAtMultiset(a, 0);
    assert a[..0] + a[1..] == a[1..];
    assert multiset(a[1..]) == multiset(a) - multiset{a[0]};
    RemoveAtMultiset(b, j);
  }

  /** A sum does not depend on the order of its terms. */
  lemma {:induction false} SumPermutation<T>(a: seq<T>, b: seq<T>, f: T -> real)
    requires multiset(a) == multiset(b)
    ensures Sum(a, f) == Sum(b, f)
    decreases |a|
  {
    if |a| == 0 {
      assert |b| == |multiset(b)| == 0;
    } else {
      assert a[0] in multiset(b);
      var j :| 0 <= j < |b| && b[j] == a[0];
      var rest := b[..j] + b[j + 1..];
      PermutationTails(a, b, j);
      SumPermutation(a[1..], rest, f);
      SumRemove(b, j, f);
    }
  }

  /** `slice(0, n)`: at most the first `n` elements. */
  function Take<T>(s: seq<T>, n: nat): (r: seq<T>)
    ensures |r| == if |s| <= n then |s| else n
    ensures r <= s
    ensures |s| <= n ==> r == s
  {
    if |s| <= n then s else s[..n]
  }
}

=== FILE: sorting.dfy ===
/** Stable sorting by an integer key, the behaviour of `Array.prototype.sort`
    (stable since ECMAScript 2019) with a comparator of the form
    `(a, b) => key(a) - key(b)`. */
module Sorting {
  import opened Seqs

  /** `s` is non-decreasing by `key`. */
  predicate SortedBy<T>(s: seq<T>, key: T -> int)
  {
    forall i, j :: 0 <= i < j < |s| ==> key(s[i]) <= key(s[j])
  }

  /** The key under which ascending order is descending order of `key`: the
      comparator `(a, b) => key(b) - key(a)`. */
  function Descending<T>(key: T -> int): T -> int
  {
    x => -key(x)
  }

  /** Selects the elements whose key is `k`. */
  function KeyIs<T>(key: T -> int, k: int): T -> bool
  {
    x => key(x) == k
  }

  /** Places `x` in front of the first element whose key is not smaller. */
  function Insert<T>(x: T, s: seq<T>, key: T -> int): (r: seq<T>)
    ensures |r| == |s| + 1
    ensures multiset(r) == multiset(s) + multiset{x}
    ensures forall i :: 0 <= i < |r| ==> r[i] == x || r[i] in s
  {
    if |s| == 0 || key(x) <= key(s[0]) then [x] + s
    else
      assert s == [s[0]] + s[1..];
      [s[0]] + Insert(x, s[1..], key)
  }

  /** An element no greater than every element of a sorted sequence can
      lead it. */
  lemma PrependSorted<T>(y: T, t: seq<T>, key: T -> int)
    requires SortedBy(t, key)
    requires forall k :: 0 <= k < |t| ==> key(y) <= key(t[k])
    ensures SortedBy([y] + t, key)
  {
    var r := [y] + t;
    forall i, j | 0 <= i < j < |r|
      ensures key(r[i]) <= key(r[j])
    {
      assert r[j] == t[j - 1];
      if i > 0 {
        assert r[i] == t[i - 1];
      }
    }
  }

  /** Inserting into a sorted sequence keeps it sorted. */
  lemma {:induction false} InsertSorted<T>(x: T, s: seq<T>, key: T -> int)
    requires SortedBy(s, key)
    ensures SortedBy(Insert(x, s, key), key)
  {
    if |s| == 0 || key(x) <= key(s[0]) {
      forall k | 0 <= k < |s|
        ensures key(x) <= key(s[k])
      {
        if k > 0 {
          assert key(s[0]) <= key(s[k]);
        }
      }
      PrependSorted(x, s, key);
    } else {
      var rest := s[1..];
      var tail := Insert(x, rest, key);
      assert SortedBy(rest, key);
      InsertSorted(x, rest, key);
      forall k | 0 <= k < |tail|
        ensures key(s[0]) <= key(tail[k])
      {
        if tail[k] != x {
          var m :| 0 <= m < |rest| && rest[m] == tail[k];
          assert rest[m] == s[m + 1];
        }
      }
      PrependSorted(s[0], tail, key);
    }
  }

  /** Insertion sort: a sorted permutation of `s`. */
  function SortBy<T>(s: seq<T>, key: T -> int): (r: seq<T>)
    ensures |r| == |s|
    ensures multiset(r) == multiset(s)
    ensures SortedBy(r, key)
  {
    if |s| == 0 then []
    else
      assert s == [s[0]] + s[1..];
      var sorted := SortBy(s[1..], key);
      InsertSorted(s[0], sorted, key);
      Insert(s[0], sorted, key)
  }

  /** Sorted by `Descending(key)` means non-increasing by `key`. */
  lemma DescendingOrder<T>(s: seq<T>, key: T -> int)
    requires SortedBy(s, Descending(key))
    ensures forall i, j :: 0 <= i < j < |s| ==> key(s[i]) >= key(s[j])
  {
    forall i, j | 0 <= i < j < |s|
      ensures key(s[i]) >= key(s[j])
    {
      assert Descending(key)(s[i]) <= Descending(key)(s[j]);
    }
  }

  lemma {:induction false} InsertKeepsKeyClass<T>(x: T, s: seq<T>, key: T -> int, k: int)
    requires SortedBy(s, key)
    ensures Filter(Insert(x, s, key), KeyIs(key, k))
         == (if key(x) == k then [x] else []) + Filter(s, KeyIs(key, k))
  {
    var p := KeyIs(key, k);
    if |s| == 0 || key(x) <= key(s[0]) {
      assert ([x] + s)[1..] == s;
    } else {
      var tail := Insert(x, s[1..], key);
      assert SortedBy(s[1..], key);
      InsertKeepsKeyClass(x, s[1..], key, k);
      assert ([s[0]] + tail)[1..] == tail;
      if key(x) == k {
        assert !p(s[0]);
      }
    }
  }

  /** Stability: among elements with equal keys the sort keeps the original
      order, because it keeps every class of equal keys exactly as it was. */
  lemma {:induction false} SortIsStable<T>(s: seq<T>, key: T -> int, k: int)
    ensures Filter(SortBy(s, key), KeyIs(key, k)) == Filter(s, KeyIs(key, k))
  {
    if |s| > 0 {
      SortIsStable(s[1..], key, k);
      InsertKeepsKeyClass(s[0], SortBy(s[1..], key), key, k);
    }
  }

  /** Cutting a sorted sequence after `n` elements leaves behind only
      elements whose key is at least that of every kept one. */
  lemma TakeDominates<T>(s: seq<T>, n: nat, key: T -> int)
    requires SortedBy(s, key)
    ensures forall i, j :: 0 <= i < |Take(s, n)| <= j < |s| ==> key(Take(s, n)[i]) <= key(s[j])
  {
    forall i, j | 0 <= i < |Take(s, n)| <= j < |s|
      ensures key(Take(s, n)[i]) <= key(s[j])
    {
      assert Take(s, n)[i] == s[i];
    }
  }
}

=== FILE: text.dfy ===
/** The string operations of the search boxes: `toLowerCase` and `includes`. */
module Text {

  /** Lower-cases one character; only the ASCII letters `A`..`Z` change. */
  function LowerChar(c: char): char
  {
    if 'A' <= c <= 'Z' then (c as int + 32) as char else c
  }

  /** `String.prototype.toLowerCase`, restricted to ASCII letters. */
  function ToLower(s: string): (r: string)
    ensures |r| == |s|
    ensures forall i :: 0 <= i < |s| ==> r[i] == LowerChar(s[i])
  {
    if |s| == 0 then "" else [LowerChar(s[0])] + ToLower(s[1..])
  }

  /** Lower-casing twice is lower-casing once. */
  lemma ToLowerIdempotent(s: string)
    ensures ToLower(ToLower(s)) == ToLower(s)
  {
    var once := ToLower(s);
    assert forall i :: 0 <= i < |once| ==> LowerChar(once[i]) == once[i];
  }

  /** `String.prototype.includes`: `t` occurs somewhere in `s`. */
  function Includes(s: string, t: string): (b: bool)
    ensures b <==> exists i :: 0 <= i <= |s| && t <= s[i..]
  {
    if t <= s then
      assert s[0..] == s;
      true
    else if |s| == 0 then
      false
    else
      var b := Includes(s[1..], t);
      assert forall i :: 1 <= i <= |s| ==> s[i..] == s[1..][i - 1..];
      assert b ==> exists i :: 0 <= i <= |s| && t <= s[i..];
      b
  }

  /** Case-insensitive `includes`, as in
      `a.toLowerCase().includes(b.toLowerCase())`. */
  predicate IncludesIgnoringCase(s: string, t: string)
  {
    Includes(ToLower(s), ToLower(t))
  }

  /** The empty search term occurs in every string. */
  lemma EmptyTermMatches(s: string)
    ensures Includes(s, "")
    ensures IncludesIgnoringCase(s, "")
  {
    assert "" <= s;
    assert "" <= ToLower(s);
  }
}

=== FILE: types.dfy ===
/** The records the pages share: products, cart lines, orders, dashboard
    statistics and the store profile. Money is `real`, quantities and stock
    are `int`, timestamps are milliseconds since the epoch. */
module Types {
  import opened Wrappers

  /** A form input box: `Blank` is the empty string; `Typed` is text the
      user entered together with what the page's number parser makes of it
      (`None` for `NaN`). */
  datatype Input<T> = Blank | Typed(parsed: Option<T>) {

    /** The parsed number; the empty string parses to `NaN`. */
    function Value(): Option<T> {
      match this
      case Blank => None
      case Typed(v) => v
    }
  }

  datatype PaymentMethod = Cash | Upi

  datatype PaymentStatus = Pending | Completed

  /** A catalog entry; `stock` is counted in the product's base unit and
      `stockLevel` is the alert threshold. */
  datatype Product = Product(
    id: string,
    name: string,
    price: real,
    costPrice: Option<real>,
    discount: real,
    stock: int,
    stockLevel: int,
    category: Option<string>,
    barcode: Option<string>)

  /** A cart line: a snapshot of the product's name, price and discount
      (percent) plus a quantity and the derived line total. */
  datatype CartItem = CartItem(
    id: string,
    productId: string,
    name: string,
    price: real,
    discount: real,
    quantity: int,
    total: real)

  /** A placed order; `items` is a snapshot of the cart lines. */
  datatype Order = Order(
    id: string,
    customerId: Option<string>,
    customerName: Option<string>,
    customerMobile: Option<string>,
    items: seq<CartItem>,
    totalAmount: real,
    totalDiscount: real,
    finalAmount: real,
    paymentMethod: PaymentMethod,
    paymentStatus: PaymentStatus,
    cashGiven: Option<real>,
    changeAmount: Option<real>,
    createdAt: int)

  /** A product together with the quantity sold in the viewed period. */
  datatype ProductSale = ProductSale(product: Product, totalSold: int)

  datatype DashboardStats = DashboardStats(
    todaySales: real,
    profit: real,
    lowStockItems: seq<Product>,
    fastStockoutProducts: seq<ProductSale>,
    lessSoldProducts: seq<ProductSale>)

  datatype StoreProfile = StoreProfile(
    name: string,
    email: string,
    phone: string,
    address: string,
    gstNumber: string,
    logo: string)

  /** The line total `price * quantity * (1 - discount / 100)`. */
  function LineTotal(price: real, quantity: int, discount: real): real
  {
    price * quantity as real * (1.0 - discount / 100.0)
  }
}

=== FILE: wrappers.dfy ===
/** Optional values and success/failure results, used wherever the front end
    has an absent field (`undefined`, `null`, `NaN`) or an error path. */
module Wrappers {

  /** An optional value: `None` stands for `undefined`, `null` or `NaN`. */
  datatype Option<+T> = None | Some(value: T) {

    /** The value held, or `default` when there is none. */
    function GetOr(default: T): T {
      match this
      case Some(v) => v
      case None => default
    }
  }

  /** The outcome of an operation that either succeeds with a value or fails
      with an error the page would show in a toast. */
  datatype Result<+R, +E> = Success(value: R) | Failure(error: E)
}
